=== FILE: README.md ===
# Pop-a-loon backend: leaderboard, cache and user store, modelled in Dafny

This project models the request logic of the Pop-a-loon API. Users pop balloons in a
browser extension, and each pop raises the user's count record. The API serves a
leaderboard, the caller's rank, the total number of balloons popped and the history
of pop events. It also handles user registration, updates and the count increment.

The model is functional. The document store is a `Store`: the users collection as a
map from id to `UserRec`, and the counts collection as a sequence of `CountRec` in
scan order. The in-process `node-cache` instance is a map from key to value and
expiry instant, read against an explicit clock `now` in milliseconds. Each route
handler is a function from the store, the cache, the clock and the request to a
reply (`Ok(body)` or `Fail(status, message)`), plus the new store and cache.

Modules, in dependency order:

- `Wrappers`: `Option`, `Result`, `Reply`, the `QueryInt` result of `parseInt`, and
  `IndexOf`, which models both `Array.prototype.indexOf` and `$indexOfArray`.
- `Records`: user and count documents, the store, `Count.findById`, and the
  `$lookup`/`$unwind`/`$match` join shared by every leaderboard aggregation.
- `Decimal`: the `${n}` rendering used in cache keys, with its round trip.
- `Ordering`: count-descending orderings, and the counts above a value.
- `TtlCache`: `node-cache` `get` and `set` with a TTL in seconds.
- `Utils`: `testOrigin`, `formatUser`, `fetchLeaderboard`, `fetchTotalPopped` and
  `fetchRank`.
- `RankProperties`: what `fetchRank` promises over the whole named population.
- `LeaderboardRoute`, `StatisticsRoute`, `UserRoute`: the route handlers.

MongoDB's `$sort` leaves the order of equal counts open. The model sorts with one
fixed insertion sort, which is one admissible order. Every property about order is
stated against any non-increasing permutation of the named records
(`SortedArrangement`). `RankIndependentOfTieOrder` proves that the rank does not
depend on which admissible order the store picks.

Points of the code's behaviour that are easy to misread:

- Ranks are competition ranks: tied users share a rank, and the next distinct count
  skips by the size of the tie. Counts 10, 10, 5 rank 1, 1, 3 (`TenTenFiveRanks`).
- A score is the stored `count` alone; the balloon type of a pop does not weigh in.
- The leaderboard limit is capped at 10, and the default is also 10.
- A cached total of `0` is treated as a miss and recomputed, because the code tests
  the cached value for truthiness.
- The cache keys have no user or date-range part: only leaderboard pages and the
  total are cached.

## Model

| member | source | states |
|---|---|---|
| Wrappers.IndexOf | api/utils.ts:143 | the first index holding `x`, with no earlier occurrence; -1 exactly when `x` is absent |
| Records.ObjectIdExamples | api/routes/user.ts:39-41 | a short, long or non-hexadecimal path id does not cast to an ObjectId, and a 24-digit hex id does |
| Records.FindCount | api/routes/user.ts:62 | `Count.findById`: a record found has that id and is in the collection; nothing is found exactly when no record has that id |
| Records.NamedMembers | api/utils.ts:65-75 | the join keeps exactly the count records whose user exists with a username, each paired with that user |
| Records.TotalZeroIffAllZero | api/utils.ts:98-102 | the `$sum` of counts is 0 exactly when every record's count is 0, which is when a cached total reads as a miss |
| Records.TotalAfterReplace | api/routes/user.ts:128-130 | replacing the one record with an id changes the sum of counts by exactly new minus old |
| Records.FindAfterReplace | api/routes/user.ts:129-130 | after a save, `findById` returns the new record under its id and the old records under every other id |
| Records.FindAfterAppend | api/schemas/user.ts:60-65 | after the pre-save hook inserts a count, `findById` finds it under the new id and nothing else changes |
| Records.ReplaceKeepsDistinct | api/schemas/count.ts:6-10 | a save keeps `_id` unique in the counts collection |
| Records.AppendKeepsDistinct | api/schemas/count.ts:6-10 | inserting a count under an unused id keeps `_id` unique |
| Decimal.ReadShow | api/utils.ts:58 | the digits written for a number read back as that number |
| Decimal.ShowInjective | api/utils.ts:58 | different numbers are written differently |
| Ordering.SortByCount | api/utils.ts:76 | the sorted population is a permutation of the input in non-increasing count order |
| Ordering.CountAbovePermutation | api/routes/leaderboard.ts:45-50 | the number of records with a strictly greater count does not depend on their order |
| Ordering.FirstIndexIsCountAbove | api/utils.ts:130-144 | in any non-increasing order, the first index of a present count equals the number of records above it |
| Ordering.SortedIndexIsCountAbove | api/utils.ts:130-144 | `$indexOfArray` over the sorted counts finds a present count at the number of records above it, and gives -1 for an absent one |
| Ordering.CountAboveNextValue | api/utils.ts:130-147 | for the next lower count present, the number above it grows by exactly the number tied at the higher count |
| Ordering.SortedCountsUnique | api/utils.ts:130-139 | any two count-descending arrangements of the same records have the same sequence of counts |
| Ordering.NoneAbove | api/routes/leaderboard.ts:45-54 | when no record's count exceeds `v`, the number above `v` is 0 |
| TtlCache.Get | api/utils.ts:60-61 | a value is returned exactly when the key is present and its expiry has not passed |
| TtlCache.Set | api/utils.ts:85 | the stored value is read back from `now` through `now + ttl` seconds and, for a positive TTL, not after; a TTL of 0 never expires; other keys are untouched |
| Utils.StartsWith | api/utils.ts:34 | `startsWith` holds exactly when the prefix equals the string's first characters |
| Utils.TestOrigin | api/utils.ts:31-36 | an origin passes exactly when it is the one Chrome extension origin or starts with `moz-extension://` |
| Utils.AnyFirefoxExtensionAccepted | api/utils.ts:34 | every `moz-extension://` origin passes, whatever follows |
| Utils.OtherOriginsRefused | api/utils.ts:33-34 | another Chrome extension, `moz-extension:` without slashes, and a web origin that only contains the scheme are refused |
| Utils.FormatUser | api/utils.ts:38-52 | the email is shown only when the token's id is the user's id; the count and the user's fields are copied unchanged |
| Utils.LeaderboardKeyInjective | api/utils.ts:58 | two different `(limit, skip)` pairs never share a cache key |
| Utils.LeaderboardKeyIsNotTotalKey | api/utils.ts:9-12 | no leaderboard key collides with the total's key |
| Utils.Ranked | api/utils.ts:65-76 | the ranked population is an admissible count-descending arrangement of the named records |
| Utils.Window | api/utils.ts:77-78 | `$skip` then `$limit`: entry `i` is entry `skip + i` of the input, with at most `limit` entries and none past the end |
| Utils.WindowsJoin | api/utils.ts:77-78 | windows of one ranked sequence join without gap or overlap |
| Utils.LeaderboardPage | api/utils.ts:65-79 | a page has at most `limit` entries and is empty past the end; it is non-increasing, and each entry is a named record joined to its own user |
| Utils.FetchLeaderboard | api/utils.ts:54-87 | a live cached page for the key is served unchanged; otherwise the aggregated page is served and cached for 60 s; no other key changes |
| Utils.StalePageServed | api/utils.ts:58-85 | within 60 s of a miss the same page is served, even if the store has changed |
| Utils.ExpiredPageRecomputed | api/utils.ts:60-85 | after 60 s the page is recomputed from the current store |
| Utils.OtherPagesUntouched | api/utils.ts:58-85 | fetching one page never changes the cached entry of another `(limit, skip)` |
| Utils.FetchTotalPopped | api/utils.ts:89-108 | a live non-zero cached total is served; otherwise the sum of all counts is served and cached for exactly 300 s, after which the entry is gone; an empty collection throws |
| Utils.CachedZeroRecomputed | api/utils.ts:93-96 | a cached total of 0 is never served: the sum is recomputed |
| Utils.ExpiredTotalRecomputed | api/utils.ts:89-104 | once 300 s have passed since the total was computed, the sum is recomputed from the counts as they are then |
| Utils.StaleTotalServed | api/utils.ts:89-104 | within 300 s of computing a non-zero total, that total is served even if the counts have changed |
| Utils.FetchRank | api/utils.ts:110-148 | `NaN` when nobody is named; for a count held by some named user, 1 + the number of named users with a greater count; 0 for any other count |
| RankProperties.RankIndependentOfTieOrder | api/utils.ts:130-147 | the rank computed over any admissible sorting is the same |
| RankProperties.RankSkipsByTieSize | api/utils.ts:143-147 | competition ranking: the next lower count's rank is the higher rank plus the number of users tied at it |
| RankProperties.TiesShareRank | api/utils.ts:143 | records with equal counts get equal ranks |
| RankProperties.TenTenFiveRanks | api/utils.ts:110-148 | with three named users counting 10, 10 and 5, in any store order, a count of 10 ranks 1 and a count of 5 ranks 3 |
| LeaderboardRoute.Admit | api/routes/leaderboard.ts:10-28 | the request passes exactly when the limit is 1..10, the skip is not negative, and the caller's user and count exist; the limit error comes before the skip error, which comes before the 404 |
| LeaderboardRoute.QueryDefaults | api/routes/leaderboard.ts:10-11 | a missing, non-numeric or zero limit means 10; a missing or non-numeric skip means 0 |
| LeaderboardRoute.LimitBounds | api/routes/leaderboard.ts:13-17 | limits below 0 or above 10 get a 400, and 1..10 never does |
| LeaderboardRoute.GetLeaderboard | api/routes/leaderboard.ts:9-66 | the handler as written: rejected requests leave the cache alone; otherwise the reply is a 500 exactly when the position is 0, and a success carries the caller with their own email, the rank and the page |
| LeaderboardRoute.CallerOccurs | api/routes/leaderboard.ts:22-28 | a caller with a username has their count held by some named user |
| LeaderboardRoute.CallerRank | api/routes/leaderboard.ts:34-58 | for a count some named user holds, `fetchRank` is the handler's position plus one |
| LeaderboardRoute.HandlerRankIsFetchRank | api/routes/leaderboard.ts:34-58 | whenever the handler answers a named caller, its rank equals `fetchRank` of the caller's count |
| LeaderboardRoute.LeaderGetsServerError | api/routes/leaderboard.ts:45-54 | a caller whom no named user exceeds gets a 500 |
| LeaderboardRoute.SoleUserGetsServerError | api/routes/leaderboard.ts:22-54 | a store holding a single named user answers that user with a 500 |
| LeaderboardRoute.GetLeaderboardIntended | api/routes/leaderboard.ts:33-58 | the corrected handler: every admitted request is answered, with rank position + 1 for a named caller |
| LeaderboardRoute.IntendedLeaderRanksFirst | api/routes/leaderboard.ts:58 | under the correction, the named leader is ranked 1 |
| LeaderboardRoute.IntendedAgreesWhereWrittenAnswers | api/routes/leaderboard.ts:9-66 | the correction changes only the replies that were 500s |
| LeaderboardRoute.IntendedRankIsFetchRank | api/routes/leaderboard.ts:34-58 | under the correction, a named caller's rank always equals `fetchRank` of their count |
| StatisticsRoute.GetTotal | api/routes/statistics.ts:12-16 | the body is the total `fetchTotalPopped` gives, or a 500 when it throws |
| StatisticsRoute.TotalLagsWhileCached | api/routes/statistics.ts:12-16 | within 300 s of a computed non-zero total, the route keeps answering it whatever changes |
| StatisticsRoute.ValidateHistoryQuery | api/routes/statistics.ts:20-36 | the query passes exactly when the start is an ISO date on or after 1 July 2024, the end is absent or ISO, and the start is not after the end; the two custom errors never both occur |
| StatisticsRoute.HistoryBoundaries | api/routes/statistics.ts:24-28 | a start equal to the end is accepted; a start one day before 1 July 2024 is refused with that error alone |
| StatisticsRoute.IndexOfFirstMeeting | api/routes/statistics.ts:57 | a value met for the first time at position `k` has index `k` |
| StatisticsRoute.UniqueTypes | api/routes/statistics.ts:46-48 | `[...new Set(types)]`: no repeats, the same values as the input, in order of first occurrence |
| StatisticsRoute.ResolveNames | api/routes/statistics.ts:49-52 | one name lookup per unique type, in order, and each name is that type's |
| StatisticsRoute.BuildItems | api/routes/statistics.ts:54-58 | one entry per node in the same order, each with that node's date and its own type's name |
| StatisticsRoute.GetHistory | api/routes/statistics.ts:32-59 | an invalid query gets a 400 with no store access; otherwise the range is fetched with the end defaulting to now, and the reply is one entry per node with its type's name, each type looked up once |
| UserRoute.GetUser | api/routes/user.ts:37-56 | an id that is not an ObjectId gives 500 with the cast error; a missing user gives 404 "User not found", which takes precedence over "Count not found"; a success is `formatUser` of the stored user and count, without the email |
| UserRoute.GetCount | api/routes/user.ts:58-77 | an id that is not an ObjectId gives 500 with the cast error; a missing count gives 404; otherwise the reply is the stored record's id, count and update time |
| UserRoute.GetCountIgnoresUsers | api/routes/user.ts:62 | the count route consults only the counts collection |
| UserRoute.Increment | api/routes/user.ts:111-140 | an id that is not an ObjectId gives 500 before any other check; a missing count (404) is checked before ownership (403), and a refusal changes nothing; success raises that count by exactly one, stamps it with now, and leaves every other record and the store invariant intact |
| UserRoute.IncrementAddsOneToTotal | api/routes/user.ts:128-130 | a successful increment raises the popped total by exactly one |
| UserRoute.IncrementThenGetCount | api/routes/user.ts:128-136 | after a successful increment, the count route answers exactly what the increment answered |
| UserRoute.IncrementNeedsOwner | api/routes/user.ts:122-126 | without the owner's token the store is unchanged and the reply is an error |
| UserRoute.InitialCount | api/routes/user.ts:211-216 | absent keeps 0; a non-negative number is stored; `NaN` or a negative number fails the schema's validation, with the message for that case, which quotes a negative value |
| UserRoute.NegativeInitialCountMessage | api/schemas/count.ts:11-15 | `initialCount=-5` fails with the minimum-violation message quoting -5 |
| UserRoute.NewUser | api/routes/user.ts:187-226 | a username or email already in use gives 400 and no change; otherwise the user and a count record are stored, and the reply succeeds exactly when the count is visible and the initial count is valid; an invalid initial count gives 500 with the validation message; a success is `formatUser` of the stored user and count, without the email |
| UserRoute.NewUserThenGetUser | api/routes/user.ts:204-222 | a registered user reads back exactly as the registration answered |
| UserRoute.NameTakenAfterRegistration | api/routes/user.ts:193-201 | once a username is registered, registering it again is refused with 400 whatever the email |
| UserRoute.UpdateUser | api/routes/user.ts:268-303 | a token mismatch gives 403 before any lookup; then an id that is not an ObjectId gives 500 with the cast error; given fields are written and absent ones kept; a missing count gives 404 after the fields are written but without a new update time; counts never change; a success is `formatUser` of the saved user and the count, without the email |
| UserRoute.UpdateThenGetUser | api/routes/user.ts:285-299 | an updated user reads back exactly as the update answered |
| UserRoute.UpdateAllowsTakenName | api/routes/user.ts:280-284 | an update may take a username another user holds, leaving two users with it |

## Left out

- HTTP parsing, Express routing, the logging middleware and the Swagger documents are
  not modelled. A handler receives its parameters already parsed: `QueryInt` for
  `parseInt`, `DateParam` for the date strings.
- Token signing and verification are not modelled. The caller id is an input
  (`callerId`), and `None` stands for a request without a token. The `/user` routes
  sit behind the authentication middleware (api/routes/api.ts:8), which answers 401
  without a token and 403 for a bad one before any user handler runs
  (api/middleware/authentication.ts:10-19). So a user handler is reached only with a
  verified token, and `None` matters only for the leaderboard handler's `req.jwt?.id`. The `token` field of
  the registration reply is omitted.
- The storage engine is not modelled. A query is a pure function of the `Store`, and
  each handler sees one consistent snapshot.
- Concurrent increments are not modelled. Two requests that both run `count.count++;
  await count.save()` (api/routes/user.ts:129-130) can lose one of the updates; the
  model applies requests one at a time.
- Leaderboard pages are separate `$sort`/`$skip`/`$limit` queries, each cached at its
  own time from its own snapshot (api/utils.ts:54-85). MongoDB may order tied counts
  differently from one query to the next. `WindowsJoin` is about windows of one
  sequence, so the model does not promise that paging through the cache shows every
  user exactly once.
- The CORS wiring in api/index.ts is not modelled; only `testOrigin` itself is.
- `fetchHistory` and `fetchBalloonName` are not part of this model. `GetHistory`
  takes them as function parameters. A type with no name is not modelled as
  throwing.
- `ValidateHistoryQuery` treats every non-ISO date string as unparseable. A string
  that `new Date` accepts but `isISO8601` refuses would also reach the custom checks.
- `HistoryStart` is `new Date(2024, 6, 1)` in UTC; the code uses the server's local
  time zone.
- `createdAt` is an input. The code derives it from the ObjectId timestamp, which has
  second resolution.
- The read-back `Count.findById(user.id)` in registration (api/routes/user.ts:206)
  races with the un-awaited count insert in the user pre-save hook. `NewUser` models
  the race with the `countVisible` flag, and the count record is always written.
- `NewUser` requires a fresh `newId` not yet in either collection, which is what a
  new ObjectId gives.
- `node-cache` deletes an expired entry when it is read. The model keeps it, and
  `Get` treats it as absent; the difference cannot be observed. Cache statistics and
  `maxKeys` are not modelled.
- `StatisticsRoute.GetHistory` reduces the 400 body to the first validation error's
  message; the code sends the whole `errors.array()` list.
- `IsObjectId` accepts exactly 24 hexadecimal digits. Older BSON versions also cast any
  12-character string. An upper-case hex id finds the same document in the code,
  but the model compares ids as strings.
- JavaScript numbers are doubles. Counts and totals are unbounded integers here, so
  precision loss above 2^53 is not modelled.
- `GetLeaderboard` does not model the order of `fetchLeaderboard` relative to the
  rank aggregation beyond the cache effect. The page is cached even when the reply
  is a 500, as in the code.
- The scripts under tasks/ (adding balloon types, regenerating a token, migrations)
  are not modelled: they are administrative, outside the request path.

## Findings

| source | as written | input that shows it | evidently intended | confidence | as-written member | corrected member |
|---|---|---|---|---|---|---|
| api/routes/leaderboard.ts:34-54 | the `$count` stage yields no document when no named user has a strictly greater count, so `[0].count` throws and the handler answers 500 | a store whose only user is "ann" with count 5, asking for the default leaderboard | the leader (and everyone tied at the top) gets position 0, hence rank 1; the correction also drops the `&& position` test at line 58, which would otherwise null the leader's rank | high (not executed) | LeaderboardRoute.GetLeaderboard | LeaderboardRoute.GetLeaderboardIntended |

The as-written behaviour is shown by `LeaderboardRoute.LeaderGetsServerError` and
`LeaderboardRoute.SoleUserGetsServerError`. The corrected handler is proved by
`LeaderboardRoute.IntendedLeaderRanksFirst`,
`LeaderboardRoute.IntendedAgreesWhereWrittenAnswers` and
`LeaderboardRoute.IntendedRankIsFetchRank`.

=== FILE: decimal.dfy ===
/** Decimal rendering of non-negative integers, as a JavaScript template literal
    `${n}` produces it for the integers the service formats (no sign, no leading zeros). */
module Decimal {

  predicate IsDigit(ch: char) {
    '0' <= ch <= '9'
  }

  function DigitChar(d: nat): (ch: char)
    requires d < 10
    ensures IsDigit(ch)
  {
    "0123456789"[d]
  }

  function DigitValue(ch: char): nat
    requires IsDigit(ch)
  {
    (ch as int - '0' as int) as nat
  }

  /** `${n}` for a non-negative integer. */
  function Show(n: nat): (s: string)
    ensures |s| >= 1
    ensures forall i :: 0 <= i < |s| ==> IsDigit(s[i])
  {
    if n < 10 then [DigitChar(n)] else Show(n / 10) + [DigitChar(n % 10)]
  }

  /** Reads a string of digits back as a number. */
  function Read(s: string): nat
    requires forall i :: 0 <= i < |s| ==> IsDigit(s[i])
  {
    if |s| == 0 then 0 else Read(s[..|s| - 1]) * 10 + DigitValue(s[|s| - 1])
  }

  lemma DigitRoundTrip(d: nat)
    requires d < 10
    ensures DigitValue(DigitChar(d)) == d
  {
  }

  /** Reading what `Show` wrote gives the number back. */
  lemma {:induction false} ReadShow(n: nat)
    ensures Read(Show(n)) == n
  {
    var s := Show(n);
    if n < 10 {
      DigitRoundTrip(n);
    } else {
      assert s[..|s| - 1] == Show(n / 10);
      DigitRoundTrip(n % 10);
      ReadShow(n / 10);
    }
  }

  /** Different numbers are shown differently. */
  lemma ShowInjective(a: nat, b: nat)
    requires Show(a) == Show(b)
    ensures a == b
  {
    ReadShow(a);
    ReadShow(b);
  }
}

=== FILE: leaderboard_route.dfy ===
/** `GET /leaderboard`: query defaults and bounds, the caller's documents, the page of
    top users and the caller's rank. */
module LeaderboardRoute {
  import opened Wrappers
  import opened Records
  import opened Ordering
  import opened Utils

  const DefaultLimit: int := 10
  const MaxLimit: int := 10
  const DefaultSkip: int := 0
  const LimitMessage: string := "Invalid limit, limit must be 1 < limit < 10"
  const SkipMessage: string := "Invalid skip, skip must be > 0"
  const NotFoundMessage: string := "User not found"
  /** What escapes the handler when the `$count` stage yields no document. */
  const NoPositionMessage: string := "Cannot read properties of undefined (reading 'count')"

  datatype LeaderboardBody = LeaderboardBody(user: UserView, rank: Option<int>, topUsers: seq<UserView>)

  /** The outcome of the checks that run before any aggregation. */
  datatype Admission =
    | Rejected(status: int, message: string)
    | Admitted(user: UserRec, rec: CountRec, limit: nat, skip: nat)

  /** The limit in effect: `parseInt(limit) || 10`. */
  function EffectiveLimit(q: QueryInt): int {
    IntOr(q, DefaultLimit)
  }

  /** The skip in effect: `parseInt(skip) || 0`. */
  function EffectiveSkip(q: QueryInt): int {
    IntOr(q, DefaultSkip)
  }

  /** Query validation (limit first, then skip), then the caller's user and count
      documents. */
  function Admit(st: Store, callerId: Option<Id>, limitQ: QueryInt, skipQ: QueryInt): (a: Admission)
    ensures a.Admitted? <==>
      && 1 <= EffectiveLimit(limitQ) <= MaxLimit
      && EffectiveSkip(skipQ) >= 0
      && callerId.Some? && callerId.value in st.users
      && FindCount(st.counts, callerId.value).Some?
    ensures !(1 <= EffectiveLimit(limitQ) <= MaxLimit) ==> a == Rejected(400, LimitMessage)
    ensures 1 <= EffectiveLimit(limitQ) <= MaxLimit && EffectiveSkip(skipQ) < 0 ==>
      a == Rejected(400, SkipMessage)
    ensures 1 <= EffectiveLimit(limitQ) <= MaxLimit && EffectiveSkip(skipQ) >= 0 && a.Rejected? ==>
      a == Rejected(404, NotFoundMessage)
    ensures a.Admitted? ==>
      && a.limit == EffectiveLimit(limitQ) && a.skip == EffectiveSkip(skipQ)
      && 1 <= a.limit <= MaxLimit
      && a.user == st.users[callerId.value]
      && Some(a.rec) == FindCount(st.counts, callerId.value)
  {
    var limit := EffectiveLimit(limitQ);
    var skip := EffectiveSkip(skipQ);
    if limit < 1 || limit > MaxLimit then Rejected(400, LimitMessage)
    else if skip < 0 then Rejected(400, SkipMessage)
    else if callerId.None? || callerId.value !in st.users then Rejected(404, NotFoundMessage)
    else match FindCount(st.counts, callerId.value)
      case None => Rejected(404, NotFoundMessage)
      case Some(rec) => Admitted(st.users[callerId.value], rec, limit, skip)
  }

  /** A missing, non-numeric or zero limit means 10; a missing or non-numeric skip means 0. */
  lemma QueryDefaults(limitQ: QueryInt, skipQ: QueryInt)
    ensures limitQ == Absent || limitQ == NotANumber || limitQ == Num(0) ==> EffectiveLimit(limitQ) == 10
    ensures skipQ == Absent || skipQ == NotANumber ==> EffectiveSkip(skipQ) == 0
    ensures limitQ.Num? && 1 <= limitQ.v <= 10 ==> EffectiveLimit(limitQ) == limitQ.v
  {
  }

  /** Exactly the limits 1 to 10 pass; 11 and negative ones are refused with 400 before the
      store is consulted. */
  lemma LimitBounds(st: Store, callerId: Option<Id>, l: int, skipQ: QueryInt)
    ensures (l < 0 || l > 10) ==> Admit(st, callerId, Num(l), skipQ) == Rejected(400, LimitMessage)
    ensures 1 <= l <= 10 ==> Admit(st, callerId, Num(l), skipQ) != Rejected(400, LimitMessage)
  {
  }

  /** "position": how many named users have a strictly greater count than `rec`. */
  function Position(st: Store, rec: CountRec): nat {
    CountAbove(Named(st.counts, st.users), rec.count)
  }

  /** Each leaderboard entry formatted without a token, so without an e-mail. */
  function TopUsers(page: seq<Joined>): (views: seq<UserView>)
    ensures |views| == |page|
    ensures forall i :: 0 <= i < |page| ==>
      views[i] == FormatUser(page[i].user, page[i].rec, None) && views[i].email.None?
  {
    seq(|page|, i requires 0 <= i < |page| => FormatUser(page[i].user, page[i].rec, None))
  }

  /** The rank the handler reports once it has a position: `null` for a caller whose
      username is missing or empty (`user.username && position`). */
  function ReportedRank(user: UserRec, position: nat): (rank: Option<int>)
    ensures rank.Some? <==> Truthy(user.username) && position != 0
    ensures rank.Some? ==> rank.value == position + 1
  {
    if Truthy(user.username) && position != 0 then Some(position + 1) else None
  }

  /** The handler as written: when nobody named is above the caller, the count stage
      produces no document, `[0].count` throws and the reply is a 500. */
  function GetLeaderboard(st: Store, c: AppCache, now: int, callerId: Option<Id>, limitQ: QueryInt, skipQ: QueryInt)
    : (r: (Reply<LeaderboardBody>, AppCache))
    ensures Admit(st, callerId, limitQ, skipQ).Rejected? ==>
      var a := Admit(st, callerId, limitQ, skipQ);
      r == (Fail(a.status, a.message), c)
    ensures Admit(st, callerId, limitQ, skipQ).Admitted? ==>
      var a := Admit(st, callerId, limitQ, skipQ);
      var (page, c') := FetchLeaderboard(c, now, st, a.limit, a.skip);
      && r.1 == c'
      && (Position(st, a.rec) == 0 <==> r.0 == Fail(500, NoPositionMessage))
      && (Position(st, a.rec) != 0 ==> r.0.Ok?)
      && (r.0.Ok? ==>
           && r.0.body.user == FormatUser(a.user, a.rec, callerId)
           && (Valid(st) ==> r.0.body.user.email == a.user.email)
           && r.0.body.rank == (if Truthy(a.user.username) then Some(Position(st, a.rec) + 1) else None)
           && r.0.body.topUsers == TopUsers(page))
  {
    match Admit(st, callerId, limitQ, skipQ)
    case Rejected(status, message) => (Fail(status, message), c)
    case Admitted(user, rec, limit, skip) =>
      var (page, c') := FetchLeaderboard(c, now, st, limit, skip);
      var position := Position(st, rec);
      if position == 0 then (Fail(500, NoPositionMessage), c')
      else (Ok(LeaderboardBody(FormatUser(user, rec, callerId), ReportedRank(user, position), TopUsers(page))), c')
  }

  /** The handler with the top-of-board case repaired: position 0 is rank 1. */
  function GetLeaderboardIntended(st: Store, c: AppCache, now: int, callerId: Option<Id>, limitQ: QueryInt, skipQ: QueryInt)
    : (r: (Reply<LeaderboardBody>, AppCache))
    ensures Admit(st, callerId, limitQ, skipQ).Rejected? ==>
      var a := Admit(st, callerId, limitQ, skipQ);
      r == (Fail(a.status, a.message), c)
    ensures Admit(st, callerId, limitQ, skipQ).Admitted? ==>
      var a := Admit(st, callerId, limitQ, skipQ);
      var (page, c') := FetchLeaderboard(c, now, st, a.limit, a.skip);
      && r.1 == c'
      && r.0.Ok?
      && r.0.body.user == FormatUser(a.user, a.rec, callerId)
      && r.0.body.rank == (if Truthy(a.user.username) then Some(Position(st, a.rec) + 1) else None)
      && r.0.body.topUsers == TopUsers(page)
  {
    match Admit(st, callerId, limitQ, skipQ)
    case Rejected(status, message) => (Fail(status, message), c)
    case Admitted(user, rec, limit, skip) =>
      var (page, c') := FetchLeaderboard(c, now, st, limit, skip);
      var rank := if Truthy(user.username) then Some(Position(st, rec) + 1) else None;
      (Ok(LeaderboardBody(FormatUser(user, rec, callerId), rank, TopUsers(page))), c')
  }

  /** The caller's own entry joins into the named population when they have a username. */
  lemma CallerOccurs(st: Store, callerId: Option<Id>, limitQ: QueryInt, skipQ: QueryInt)
    requires Valid(st)
    requires Admit(st, callerId, limitQ, skipQ).Admitted?
    requires Listed(Admit(st, callerId, limitQ, skipQ).user)
    ensures Occurs(Named(st.counts, st.users), Admit(st, callerId, limitQ, skipQ).rec.count)
  {
    var a := Admit(st, callerId, limitQ, skipQ);
    var named := Named(st.counts, st.users);
    var j := Joined(a.rec, st.users[a.rec.id]);
    NamedMembers(st.counts, st.users);
    assert j in named;
    var i :| 0 <= i < |named| && named[i] == j;
  }

  /** Whenever the handler answers, a named caller's rank is exactly `fetchRank` of their
      count: the same competition rank. */
  lemma HandlerRankIsFetchRank(st: Store, c: AppCache, now: int, callerId: Option<Id>, limitQ: QueryInt, skipQ: QueryInt)
    requires Valid(st)
    requires Admit(st, callerId, limitQ, skipQ).Admitted?
    requires Truthy(Admit(st, callerId, limitQ, skipQ).user.username)
    requires GetLeaderboard(st, c, now, callerId, limitQ, skipQ).0.Ok?
    ensures var a := Admit(st, callerId, limitQ, skipQ);
      var rank := GetLeaderboard(st, c, now, callerId, limitQ, skipQ).0.body.rank;
      rank.Some? && FetchRank(st, a.rec) == Rank(rank.value)
  {
    var a := Admit(st, callerId, limitQ, skipQ);
    CallerOccurs(st, callerId, limitQ, skipQ);
    CallerRank(st, a.rec);
  }

  /** For a count some named user holds, `fetchRank` is one more than the handler's position. */
  lemma CallerRank(st: Store, rec: CountRec)
    requires Occurs(Named(st.counts, st.users), rec.count)
    ensures FetchRank(st, rec) == Rank(Position(st, rec) + 1)
  {
  }

  /** The defect: a caller whose count nobody named exceeds (the leader, or everyone
      tied at the top) is answered with a 500 instead of rank 1. */
  lemma LeaderGetsServerError(st: Store, c: AppCache, now: int, callerId: Option<Id>, limitQ: QueryInt, skipQ: QueryInt)
    requires Admit(st, callerId, limitQ, skipQ).Admitted?
    requires forall e :: e in Named(st.counts, st.users) ==>
      e.rec.count <= Admit(st, callerId, limitQ, skipQ).rec.count
    ensures GetLeaderboard(st, c, now, callerId, limitQ, skipQ).0 == Fail(500, NoPositionMessage)
  {
    var a := Admit(st, callerId, limitQ, skipQ);
    NoneAbove(Named(st.counts, st.users), a.rec.count);
  }

  /** A concrete instance: one user, "ann", with count 5, asking for the default page. */
  lemma SoleUserGetsServerError(c: AppCache, now: int)
    ensures var ann := UserRec("a", Some("ann"), None, None, 0, 0);
      var st := Store(map["a" := ann], [CountRec("a", 5, 0)]);
      GetLeaderboard(st, c, now, Some("a"), Absent, Absent).0 == Fail(500, NoPositionMessage)
  {
    var ann := UserRec("a", Some("ann"), None, None, 0, 0);
    var st := Store(map["a" := ann], [CountRec("a", 5, 0)]);
    assert FindCount(st.counts, "a") == Some(CountRec("a", 5, 0));
    assert Named(st.counts, st.users) == [Joined(CountRec("a", 5, 0), ann)];
    LeaderGetsServerError(st, c, now, Some("a"), Absent, Absent);
  }

  /** With the repair, the leader (with a username) is ranked first. */
  lemma IntendedLeaderRanksFirst(st: Store, c: AppCache, now: int, callerId: Option<Id>, limitQ: QueryInt, skipQ: QueryInt)
    requires Admit(st, callerId, limitQ, skipQ).Admitted?
    requires Truthy(Admit(st, callerId, limitQ, skipQ).user.username)
    requires forall e :: e in Named(st.counts, st.users) ==>
      e.rec.count <= Admit(st, callerId, limitQ, skipQ).rec.count
    ensures GetLeaderboardIntended(st, c, now, callerId, limitQ, skipQ).0.body.rank == Some(1)
  {
    var a := Admit(st, callerId, limitQ, skipQ);
    NoneAbove(Named(st.counts, st.users), a.rec.count);
  }

  /** The repair changes nothing else: wherever the handler as written answers, the
      repaired one answers the same. */
  lemma IntendedAgreesWhereWrittenAnswers(st: Store, c: AppCache, now: int, callerId: Option<Id>, limitQ: QueryInt, skipQ: QueryInt)
    requires !GetLeaderboard(st, c, now, callerId, limitQ, skipQ).0.Fail? ||
             GetLeaderboard(st, c, now, callerId, limitQ, skipQ).0.status != 500
    ensures GetLeaderboardIntended(st, c, now, callerId, limitQ, skipQ) == GetLeaderboard(st, c, now, callerId, limitQ, skipQ)
  {
  }

  /** With the repair, a named caller's rank is `fetchRank` of their count in every case. */
  lemma IntendedRankIsFetchRank(st: Store, c: AppCache, now: int, callerId: Option<Id>, limitQ: QueryInt, skipQ: QueryInt)
    requires Valid(st)
    requires Admit(st, callerId, limitQ, skipQ).Admitted?
    requires Truthy(Admit(st, callerId, limitQ, skipQ).user.username)
    ensures var a := Admit(st, callerId, limitQ, skipQ);
      var rank := GetLeaderboardIntended(st, c, now, callerId, limitQ, skipQ).0.body.rank;
      rank.Some? && FetchRank(st, a.rec) == Rank(rank.value)
  {
    var a := Admit(st, callerId, limitQ, skipQ);
    CallerOccurs(st, callerId, limitQ, skipQ);
    CallerRank(st, a.rec);
  }
}

=== FILE: ordering.dfy ===
/** Ordering of joined count records by count, descending (`$sort: { count: -1 }`),
    and the counting facts the rank computations rest on. The store leaves the order
    of equal counts open; everything stated here holds for every non-increasing
    arrangement of the same records. */
module Ordering {
  import opened Wrappers
  import opened Records

  /** Counts never increase along the sequence. */
  predicate NonIncreasing(xs: seq<Joined>) {
    forall i, j :: 0 <= i < j < |xs| ==> xs[i].rec.count >= xs[j].rec.count
  }

  /** `xs` is an admissible result of `$sort: { count: -1 }` applied to `population`. */
  predicate SortedArrangement(xs: seq<Joined>, population: seq<Joined>) {
    NonIncreasing(xs) && multiset(xs) == multiset(population)
  }

  /** Every record of `xs` has a count of at most `c`. */
  predicate AllAtMost(xs: seq<Joined>, c: int) {
    forall i :: 0 <= i < |xs| ==> xs[i].rec.count <= c
  }

  /** In a non-increasing arrangement the head carries the largest count. */
  lemma HeadIsMax(xs: seq<Joined>, y: Joined)
    requires NonIncreasing(xs)
    requires y in multiset(xs)
    ensures y.rec.count <= xs[0].rec.count
  {
    var k :| 0 <= k < |xs| && xs[k] == y;
  }

  /** A record no smaller than everything in a non-increasing tail extends it. */
  lemma Cons(h: Joined, t: seq<Joined>)
    requires NonIncreasing(t)
    requires AllAtMost(t, h.rec.count)
    ensures NonIncreasing([h] + t)
  {
    var r := [h] + t;
    forall i, j | 0 <= i < j < |r| ensures r[i].rec.count >= r[j].rec.count {
      assert r[j] == t[j - 1];
      if i > 0 {
        assert r[i] == t[i - 1];
      }
    }
  }

  /** Places `x` before the first record whose count does not exceed its own. */
  function Insert(x: Joined, xs: seq<Joined>): (r: seq<Joined>)
    requires NonIncreasing(xs)
    ensures NonIncreasing(r)
    ensures multiset(r) == multiset(xs) + multiset{x}
  {
    if |xs| == 0 || xs[0].rec.count <= x.rec.count then
      Cons(x, xs);
      [x] + xs
    else
      var tail := Insert(x, xs[1..]);
      assert xs == [xs[0]] + xs[1..];
      assert AllAtMost(tail, xs[0].rec.count) by {
        forall i | 0 <= i < |tail| ensures tail[i].rec.count <= xs[0].rec.count {
          assert tail[i] in multiset(tail);
          if tail[i] != x {
            HeadIsMax(xs, tail[i]);
          }
        }
      }
      Cons(xs[0], tail);
      [xs[0]] + tail
  }

  /** One admissible `$sort: { count: -1 }`: insertion sort. */
  function SortByCount(xs: seq<Joined>): (r: seq<Joined>)
    ensures SortedArrangement(r, xs)
  {
    if |xs| == 0 then []
    else
      assert xs == [xs[0]] + xs[1..];
      Insert(xs[0], SortByCount(xs[1..]))
  }

  /** The values an aggregation `$push`es: each record's count, in order. */
  function CountsOf(xs: seq<Joined>): (r: seq<int>)
    ensures |r| == |xs|
    ensures forall i :: 0 <= i < |xs| ==> r[i] == xs[i].rec.count
  {
    if |xs| == 0 then [] else [xs[0].rec.count] + CountsOf(xs[1..])
  }

  /** How many records have a count strictly greater than `v`. */
  function CountAbove(xs: seq<Joined>, v: int): nat {
    if |xs| == 0 then 0
    else (if xs[0].rec.count > v then 1 else 0) + CountAbove(xs[1..], v)
  }

  /** How many records have a count equal to `v`. */
  function CountEqual(xs: seq<Joined>, v: int): nat {
    if |xs| == 0 then 0
    else (if xs[0].rec.count == v then 1 else 0) + CountEqual(xs[1..], v)
  }

  /** Some record has count `v`. */
  predicate Occurs(xs: seq<Joined>, v: int) {
    exists i :: 0 <= i < |xs| && xs[i].rec.count == v
  }

  lemma {:induction false} CountAboveAppend(a: seq<Joined>, b: seq<Joined>, v: int)
    ensures CountAbove(a + b, v) == CountAbove(a, v) + CountAbove(b, v)
  {
    if |a| > 0 {
      assert (a + b)[0] == a[0];
      assert (a + b)[1..] == a[1..] + b;
      CountAboveAppend(a[1..], b, v);
    } else {
      assert a + b == b;
    }
  }

  /** Removing the record at `k` removes exactly that record from the multiset. */
  lemma RemoveAtMultiset(b: seq<Joined>, k: int)
    requires 0 <= k < |b|
    ensures multiset(b[..k] + b[k + 1..]) + multiset{b[k]} == multiset(b)
  {
    assert b == b[..k] + [b[k]] + b[k + 1..];
  }

  /** Removing a record keeps a non-increasing arrangement non-increasing. */
  lemma RemoveAtNonIncreasing(b: seq<Joined>, k: int)
    requires 0 <= k < |b|
    requires NonIncreasing(b)
    ensures NonIncreasing(b[..k] + b[k + 1..])
  {
    var rest := b[..k] + b[k + 1..];
    forall i, j | 0 <= i < j < |rest| ensures rest[i].rec.count >= rest[j].rec.count {
      var bi := if i < k then i else i + 1;
      var bj := if j < k then j else j + 1;
      assert rest[i] == b[bi] && rest[j] == b[bj];
    }
  }

  /** Adding the same record to two multisets keeps them apart or equal. */
  lemma MultisetCancel(p: multiset<Joined>, q: multiset<Joined>, x: Joined)
    requires p + multiset{x} == q + multiset{x}
    ensures p == q
  {
    forall y ensures p[y] == q[y] {
      assert (p + multiset{x})[y] == (q + multiset{x})[y];
    }
  }

  /** `CountAbove` depends only on the multiset of records, not on their order. */
  lemma {:induction false} CountAbovePermutation(a: seq<Joined>, b: seq<Joined>, v: int)
    requires multiset(a) == multiset(b)
    ensures CountAbove(a, v) == CountAbove(b, v)
  {
    if |a| == 0 {
      assert |b| == |multiset(b)| == 0;
    } else {
      var x := a[0];
      assert x in multiset(b);
      var k :| 0 <= k < |b| && b[k] == x;
      var rest := b[..k] + b[k + 1..];
      RemoveAtMultiset(b, k);
      assert a == [x] + a[1..];
      assert multiset(a) == multiset{x} + multiset(a[1..]);
      MultisetCancel(multiset(rest), multiset(a[1..]), x);
      CountAbovePermutation(a[1..], rest, v);
      assert b == b[..k] + ([x] + b[k + 1..]);
      CountAboveAppend(b[..k], [x] + b[k + 1..], v);
      CountAboveAppend(b[..k], b[k + 1..], v);
      assert ([x] + b[k + 1..])[0] == x;
      assert ([x] + b[k + 1..])[1..] == b[k + 1..];
    }
  }

  /** Whether a count value occurs depends only on the multiset of records. */
  lemma OccursPermutation(a: seq<Joined>, b: seq<Joined>, v: int)
    requires multiset(a) == multiset(b)
    ensures Occurs(a, v) <==> Occurs(b, v)
  {
    if Occurs(a, v) {
      var i :| 0 <= i < |a| && a[i].rec.count == v;
      assert a[i] in multiset(b);
    }
    if Occurs(b, v) {
      var i :| 0 <= i < |b| && b[i].rec.count == v;
      assert b[i] in multiset(a);
    }
  }

  /** If every count is at most `v`, none is above it. */
  lemma {:induction false} NoneAbove(xs: seq<Joined>, v: int)
    requires AllAtMost(xs, v)
    ensures CountAbove(xs, v) == 0
  {
    if |xs| > 0 {
      NoneAbove(xs[1..], v);
    }
  }

  /** The tail of a non-increasing arrangement is non-increasing and bounded by the head. */
  lemma Tail(xs: seq<Joined>)
    requires |xs| > 0 && NonIncreasing(xs)
    ensures NonIncreasing(xs[1..])
    ensures AllAtMost(xs[1..], xs[0].rec.count)
  {
  }

  /** In a non-increasing arrangement, the first index holding count `v` equals the
      number of records with a strictly greater count. This is the link between
      `$indexOfArray` over sorted counts and a competition rank. */
  lemma {:induction false} FirstIndexIsCountAbove(xs: seq<Joined>, v: int)
    requires NonIncreasing(xs)
    requires Occurs(xs, v)
    ensures IndexOf(CountsOf(xs), v) == CountAbove(xs, v)
  {
    var cs := CountsOf(xs);
    Tail(xs);
    if xs[0].rec.count == v {
      assert cs[0] == v;
      NoneAbove(xs[1..], v);
    } else {
      var i :| 0 <= i < |xs| && xs[i].rec.count == v;
      assert i != 0;
      assert xs[1..][i - 1].rec.count == v;
      assert cs[1..] == CountsOf(xs[1..]);
      FirstIndexIsCountAbove(xs[1..], v);
      IndexOfSkipHead(cs, v);
    }
  }

  /** `$indexOfArray` over the counts of the sorted population: the number of records
      above `v` when some record has count `v`, and -1 otherwise. */
  lemma SortedIndexIsCountAbove(xs: seq<Joined>, v: int)
    ensures Occurs(xs, v) ==> IndexOf(CountsOf(SortByCount(xs)), v) == CountAbove(xs, v)
    ensures !Occurs(xs, v) ==> IndexOf(CountsOf(SortByCount(xs)), v) == -1
  {
    var sorted := SortByCount(xs);
    OccursPermutation(xs, sorted, v);
    if Occurs(xs, v) {
      FirstIndexIsCountAbove(sorted, v);
      CountAbovePermutation(xs, sorted, v);
    } else {
      assert v !in CountsOf(sorted);
    }
  }

  /** Looking past a head that differs from `x` shifts the index by one. */
  lemma IndexOfSkipHead(s: seq<int>, x: int)
    requires |s| > 0 && s[0] != x && x in s[1..]
    ensures IndexOf(s, x) == IndexOf(s[1..], x) + 1
  {
  }

  /** When no count lies strictly between `b` and `a` (with `b < a`), the records
      above `b` are those above `a` plus those equal to `a`. */
  lemma {:induction false} CountAboveNextValue(xs: seq<Joined>, a: int, b: int)
    requires b < a
    requires forall i :: 0 <= i < |xs| ==> !(b < xs[i].rec.count < a)
    ensures CountAbove(xs, b) == CountAbove(xs, a) + CountEqual(xs, a)
  {
    if |xs| > 0 {
      CountAboveNextValue(xs[1..], a, b);
    }
  }

  /** Deleting the record at `k` from a non-increasing arrangement whose records up to
      `k` all tie with its head leaves the list of counts with one copy of that
      count fewer at the front. */
  lemma RemoveTiedHead(b: seq<Joined>, k: int)
    requires 0 <= k < |b|
    requires forall i :: 0 <= i <= k ==> b[i].rec.count == b[0].rec.count
    ensures CountsOf(b) == [b[0].rec.count] + CountsOf(b[..k] + b[k + 1..])
  {
    var rest := b[..k] + b[k + 1..];
    var cr := CountsOf(rest);
    var cb := CountsOf(b);
    forall i | 0 <= i < |cb| ensures cb[i] == ([b[0].rec.count] + cr)[i] {
      if 0 < i <= k {
        assert rest[i - 1] == b[i - 1];
      } else if i > k {
        assert rest[i - 1] == b[i];
      }
    }
  }

  /** Records between the head and a record tying with it all tie too. */
  lemma TiedPrefix(b: seq<Joined>, k: int)
    requires 0 <= k < |b| && NonIncreasing(b)
    requires b[k].rec.count == b[0].rec.count
    ensures forall i :: 0 <= i <= k ==> b[i].rec.count == b[0].rec.count
  {
  }

  lemma CountsOfCons(a: seq<Joined>)
    requires |a| > 0
    ensures CountsOf(a) == [a[0].rec.count] + CountsOf(a[1..])
  {
  }

  /** Matching the head of `a` with an equal record at `k` in `b`: what is left of
      `b` is still sorted, holds the rest of `a`, and lists `b`'s counts after its
      first. */
  lemma MatchHead(a: seq<Joined>, b: seq<Joined>, k: int)
    requires NonIncreasing(a) && NonIncreasing(b)
    requires multiset(a) == multiset(b)
    requires |a| > 0 && 0 <= k < |b| && b[k] == a[0]
    ensures NonIncreasing(b[..k] + b[k + 1..])
    ensures multiset(a[1..]) == multiset(b[..k] + b[k + 1..])
    ensures CountsOf(b) == [a[0].rec.count] + CountsOf(b[..k] + b[k + 1..])
  {
    HeadIsMax(b, a[0]);
    assert b[0] in multiset(a);
    HeadIsMax(a, b[0]);
    TiedPrefix(b, k);
    RemoveAtNonIncreasing(b, k);
    RemoveTiedHead(b, k);
    DropMatched(a, b, k);
  }

  /** Taking the same record out of two equal multisets leaves equal multisets. */
  lemma DropMatched(a: seq<Joined>, b: seq<Joined>, k: int)
    requires multiset(a) == multiset(b)
    requires |a| > 0 && 0 <= k < |b| && b[k] == a[0]
    ensures multiset(a[1..]) == multiset(b[..k] + b[k + 1..])
  {
    RemoveAtMultiset(b, k);
    assert a == [a[0]] + a[1..];
    assert multiset(a) == multiset(a[1..]) + multiset{a[0]};
    MultisetCancel(multiset(a[1..]), multiset(b[..k] + b[k + 1..]), a[0]);
  }

  /** Any two admissible sortings of the same records list the same counts in the
      same order: the store's choice among tied records changes who is listed,
      never which count sits at which position. */
  lemma {:induction false} SortedCountsUnique(a: seq<Joined>, b: seq<Joined>)
    requires NonIncreasing(a) && NonIncreasing(b)
    requires multiset(a) == multiset(b)
    ensures CountsOf(a) == CountsOf(b)
  {
    if |a| == 0 {
      assert |b| == |multiset(b)| == 0;
    } else {
      assert a[0] in multiset(b);
      var k :| 0 <= k < |b| && b[k] == a[0];
      MatchHead(a, b, k);
      Tail(a);
      SortedCountsUnique(a[1..], b[..k] + b[k + 1..]);
      CountsOfCons(a);
    }
  }

  /** `CountAbove` of a sequence that starts with `h`. */
  lemma CountAboveCons(h: Joined, t: seq<Joined>, v: int)
    ensures CountAbove([h] + t, v) == (if h.rec.count > v then 1 else 0) + CountAbove(t, v)
  {
    assert ([h] + t)[1..] == t;
  }
}

=== FILE: rank_properties.dfy ===
/** Properties of `fetchRank` over the whole named population: independence from
    the order the store gives tied records, competition ranking, and a worked example. */
module RankProperties {
  import opened Wrappers
  import opened Records
  import opened Ordering
  import opened Utils

  /** The rank does not depend on how the store orders tied records: the same formula
      over any admissible sorting gives the same number. */
  lemma RankIndependentOfTieOrder(st: Store, userCount: CountRec, o: seq<Joined>)
    requires SortedArrangement(o, Named(st.counts, st.users))
    requires |o| > 0
    ensures FetchRank(st, userCount) == Rank(IndexOf(CountsOf(o), userCount.count) + 1)
  {
    SortedCountsUnique(o, SortByCount(Named(st.counts, st.users)));
  }

  /** Standard competition ranking: when `b` is the next count below `a`, its rank is
      `a`'s rank plus the number of records tied at `a` (10, 10, 5 rank 1, 1, 3). */
  lemma RankSkipsByTieSize(st: Store, ra: CountRec, rb: CountRec)
    requires Occurs(Named(st.counts, st.users), ra.count)
    requires Occurs(Named(st.counts, st.users), rb.count)
    requires rb.count < ra.count
    requires forall e :: e in Named(st.counts, st.users) ==> !(rb.count < e.rec.count < ra.count)
    ensures FetchRank(st, rb).n == FetchRank(st, ra).n + CountEqual(Named(st.counts, st.users), ra.count)
  {
    var named := Named(st.counts, st.users);
    CountAboveNextValue(named, ra.count, rb.count);
  }

  /** Records with the same count share a rank, whoever owns them. */
  lemma TiesShareRank(st: Store, ra: CountRec, rb: CountRec)
    requires ra.count == rb.count
    ensures FetchRank(st, ra) == FetchRank(st, rb)
  {
  }

  /** Three named users with counts 10, 10 and 5, whatever their order in the store:
      a count of 10 ranks 1 and a count of 5 ranks 3 (not 2). */
  lemma TenTenFiveRanks(st: Store, a: Joined, b: Joined, c: Joined, rec: CountRec)
    requires multiset(Named(st.counts, st.users)) == multiset{a, b, c}
    requires a.rec.count == 10 && b.rec.count == 10 && c.rec.count == 5
    ensures rec.count == 10 ==> FetchRank(st, rec) == Rank(1)
    ensures rec.count == 5 ==> FetchRank(st, rec) == Rank(3)
  {
    TenTenFiveCounts(Named(st.counts, st.users), a, b, c);
  }

  /** Counting over the three records listed in order. */
  lemma TenTenFiveInOrder(a: Joined, b: Joined, c: Joined)
    requires a.rec.count == 10 && b.rec.count == 10 && c.rec.count == 5
    ensures CountAbove([a] + ([b] + ([c] + [])), 10) == 0
    ensures CountAbove([a] + ([b] + ([c] + [])), 5) == 2
  {
    CountAboveCons(c, [], 10);
    CountAboveCons(c, [], 5);
    CountAboveCons(b, [c] + [], 10);
    CountAboveCons(b, [c] + [], 5);
    CountAboveCons(a, [b] + ([c] + []), 10);
    CountAboveCons(a, [b] + ([c] + []), 5);
  }

  /** Counting over any arrangement of three records with counts 10, 10 and 5. */
  lemma TenTenFiveCounts(named: seq<Joined>, a: Joined, b: Joined, c: Joined)
    requires multiset(named) == multiset{a, b, c}
    requires a.rec.count == 10 && b.rec.count == 10 && c.rec.count == 5
    ensures CountAbove(named, 10) == 0 && CountAbove(named, 5) == 2
    ensures Occurs(named, 10) && Occurs(named, 5)
  {
    var abc := [a] + ([b] + ([c] + []));
    assert multiset(abc) == multiset{a, b, c};
    TenTenFiveInOrder(a, b, c);
    CountAbovePermutation(abc, named, 10);
    CountAbovePermutation(abc, named, 5);
    assert a in multiset(named) && c in multiset(named);
    var i :| 0 <= i < |named| && named[i] == a;
    var j :| 0 <= j < |named| && named[j] == c;
  }
}

=== FILE: records.dfy ===
/** The documents the core reads and writes: users, their count records, and the
    document store that holds both. */
module Records {
  import opened Wrappers

  /** A document id (a MongoDB ObjectId, compared as its hex string). A path
      parameter is any string, so an `Id` need not be a valid ObjectId. */
  type Id = string

  /** A hexadecimal digit, in either case. */
  predicate IsHexDigit(ch: char) {
    '0' <= ch <= '9' || 'a' <= ch <= 'f' || 'A' <= ch <= 'F'
  }

  /** A string that casts to an ObjectId: exactly 24 hexadecimal digits. */
  predicate IsObjectId(s: string) {
    |s| == 24 && forall i :: 0 <= i < |s| ==> IsHexDigit(s[i])
  }

  /** The model names the `CastError` message reports. */
  const UserModel: string := "User"
  const CountModel: string := "Count"

  /** The message of the `CastError` that `findById` rejects with when the id does not
      cast to an ObjectId. */
  function CastMessage(s: string, model: string): string {
    "Cast to ObjectId failed for value \"" + s + "\" (type string) at path \"_id\" for model \"" + model + "\""
  }

  /** Short, long and non-hexadecimal strings do not cast; a 24-digit hex string does. */
  lemma ObjectIdExamples()
    ensures !IsObjectId("abc")
    ensures !IsObjectId("66a0f1c2b3d4e5f60718293")
    ensures !IsObjectId("66a0f1c2b3d4e5f60718293g")
    ensures IsObjectId("66a0f1c2b3d4e5f60718293a")
  {
    assert "66a0f1c2b3d4e5f60718293g"[23] == 'g';
  }

  /** A `User` document. Every field except the id is optional in the schema;
      `createdAt` is the timestamp carried by the ObjectId. Times are milliseconds. */
  datatype UserRec = UserRec(
    id: Id,
    username: Option<string>,
    email: Option<string>,
    password: Option<string>,
    updatedAt: int,
    createdAt: int)

  /** A `Count` document, keyed by the id of the user it belongs to. The schema
      declares `count` with `min: 0`, hence `nat`. */
  datatype CountRec = CountRec(id: Id, count: nat, updatedAt: int)

  /** A count record after `$lookup` + `$unwind` with its owner. */
  datatype Joined = Joined(rec: CountRec, user: UserRec)

  /** The document store: the users collection by id, and the counts collection in
      its natural (scan) order. */
  datatype Store = Store(users: map<Id, UserRec>, counts: seq<CountRec>)

  /** `_id` is unique in the counts collection. */
  predicate DistinctIds(counts: seq<CountRec>) {
    forall i, j :: 0 <= i < j < |counts| ==> counts[i].id != counts[j].id
  }

  /** The store's standing invariant: count ids are unique and every user is filed
      under its own id. */
  predicate Valid(st: Store) {
    && DistinctIds(st.counts)
    && forall id :: id in st.users ==> st.users[id].id == id
  }

  /** `Count.findById(id)`. */
  function FindCount(counts: seq<CountRec>, id: Id): (r: Option<CountRec>)
    ensures r.Some? ==> r.value in counts && r.value.id == id
    ensures r.None? <==> forall i :: 0 <= i < |counts| ==> counts[i].id != id
  {
    if |counts| == 0 then None
    else if counts[0].id == id then Some(counts[0])
    else FindCount(counts[1..], id)
  }

  /** The aggregation filter `'user.username': { $exists: true, $ne: null }`:
      an empty username passes it. */
  predicate Listed(u: UserRec) {
    u.username.Some?
  }

  /** JavaScript truthiness of an optional string: present and non-empty. */
  predicate Truthy(s: Option<string>) {
    s.Some? && s.value != ""
  }

  /** The shared prefix of every leaderboard aggregation: `$lookup` each count record's
      user, `$unwind` (dropping records without one), and keep listed users. */
  function Named(counts: seq<CountRec>, users: map<Id, UserRec>): (r: seq<Joined>)
    ensures |r| <= |counts|
  {
    if |counts| == 0 then []
    else
      var rest := Named(counts[1..], users);
      var c := counts[0];
      if c.id in users && Listed(users[c.id]) then [Joined(c, users[c.id])] + rest else rest
  }

  /** The join keeps exactly the count records whose user exists and is listed, each
      paired with that user. */
  lemma {:induction false} NamedMembers(counts: seq<CountRec>, users: map<Id, UserRec>)
    ensures forall e :: e in Named(counts, users) <==>
      e.rec in counts && e.rec.id in users && e.user == users[e.rec.id] && Listed(e.user)
  {
    if |counts| > 0 {
      NamedMembers(counts[1..], users);
      assert counts == [counts[0]] + counts[1..];
    }
  }

  /** `$group: { total: { $sum: '$count' } }` over the whole counts collection. */
  function TotalCount(counts: seq<CountRec>): nat {
    if |counts| == 0 then 0 else counts[0].count + TotalCount(counts[1..])
  }

  /** The total is zero exactly when every record's count is zero. */
  lemma {:induction false} TotalZeroIffAllZero(counts: seq<CountRec>)
    ensures TotalCount(counts) == 0 <==> forall i :: 0 <= i < |counts| ==> counts[i].count == 0
  {
    if |counts| > 0 {
      TotalZeroIffAllZero(counts[1..]);
      assert forall i :: 1 <= i < |counts| ==> counts[i] == counts[1..][i - 1];
    }
  }

  /** Replace the record whose id is `rec.id`, keeping the collection's order. */
  function Replace(counts: seq<CountRec>, rec: CountRec): (r: seq<CountRec>)
    ensures |r| == |counts|
    ensures forall i :: 0 <= i < |counts| ==>
      r[i] == (if counts[i].id == rec.id then rec else counts[i])
  {
    if |counts| == 0 then []
    else [if counts[0].id == rec.id then rec else counts[0]] + Replace(counts[1..], rec)
  }

  /** Replacing the one record with a given id changes the total by exactly the
      difference of the two counts. */
  lemma {:induction false} TotalAfterReplace(counts: seq<CountRec>, old_: CountRec, rec: CountRec)
    requires DistinctIds(counts)
    requires old_ in counts && old_.id == rec.id
    ensures TotalCount(Replace(counts, rec)) + old_.count == TotalCount(counts) + rec.count
  {
    var head := if counts[0].id == rec.id then rec else counts[0];
    var tail := Replace(counts[1..], rec);
    assert Replace(counts, rec) == [head] + tail;
    assert ([head] + tail)[1..] == tail;
    DistinctTail(counts);
    if counts[0] == old_ {
      ReplaceAbsent(counts[1..], rec);
    } else {
      var k :| 0 <= k < |counts| && counts[k] == old_;
      assert counts[1..][k - 1] == old_;
      TotalAfterReplace(counts[1..], old_, rec);
    }
  }

  /** Past the head of a collection with unique ids: still unique, and the head's id
      does not reappear. */
  lemma DistinctTail(counts: seq<CountRec>)
    requires DistinctIds(counts) && |counts| > 0
    ensures DistinctIds(counts[1..])
    ensures forall i :: 0 <= i < |counts[1..]| ==> counts[1..][i].id != counts[0].id
  {
    forall i | 0 <= i < |counts[1..]| ensures counts[1..][i].id != counts[0].id {
      assert counts[1..][i] == counts[i + 1];
    }
  }

  /** Replacing an id the collection does not hold changes nothing. */
  lemma ReplaceAbsent(counts: seq<CountRec>, rec: CountRec)
    requires forall i :: 0 <= i < |counts| ==> counts[i].id != rec.id
    ensures Replace(counts, rec) == counts
  {
  }

  /** Replacing a record keeps the ids, hence their uniqueness. */
  lemma ReplaceKeepsDistinct(counts: seq<CountRec>, rec: CountRec)
    requires DistinctIds(counts)
    ensures DistinctIds(Replace(counts, rec))
  {
    var r := Replace(counts, rec);
    assert forall i :: 0 <= i < |counts| ==> r[i].id == counts[i].id;
  }

  /** `findById` after a replacement sees the new record under its id and the old
      records under every other id. */
  lemma {:induction false} FindAfterReplace(counts: seq<CountRec>, rec: CountRec, id: Id)
    ensures FindCount(Replace(counts, rec), id) ==
      if id == rec.id && FindCount(counts, id).Some? then Some(rec) else FindCount(counts, id)
  {
    if |counts| > 0 {
      assert Replace(counts, rec)[1..] == Replace(counts[1..], rec);
      FindAfterReplace(counts[1..], rec, id);
    }
  }

  /** `findById` after inserting a record: earlier records win, and the new one is
      found under its id when no earlier record has it. */
  lemma {:induction false} FindAfterAppend(counts: seq<CountRec>, rec: CountRec, id: Id)
    ensures FindCount(counts + [rec], id) ==
      if FindCount(counts, id).Some? then FindCount(counts, id)
      else if id == rec.id then Some(rec) else None
  {
    if |counts| == 0 {
      assert counts + [rec] == [rec];
    } else {
      assert (counts + [rec])[1..] == counts[1..] + [rec];
      FindAfterAppend(counts[1..], rec, id);
    }
  }

  /** Inserting a record under an id not yet present keeps ids unique. */
  lemma AppendKeepsDistinct(counts: seq<CountRec>, rec: CountRec)
    requires DistinctIds(counts)
    requires FindCount(counts, rec.id).None?
    ensures DistinctIds(counts + [rec])
  {
    var r := counts + [rec];
    assert forall i :: 0 <= i < |counts| ==> r[i] == counts[i];
  }
}

=== FILE: statistics_route.dfy ===
/** `GET /statistics` (the popped total) and `GET /statistics/history` (pop events
    in a date range, with balloon type names resolved). */
module StatisticsRoute {
  import opened Wrappers
  import opened Records
  import opened Utils

  // ---------------------------------------------------------------------------
  // GET /

  datatype TotalBody = TotalBody(totalPopped: int)

  /** The total route: whatever `fetchTotalPopped` produces; a thrown error reaches the
      error handler and becomes a 500. */
  function GetTotal(c: AppCache, now: int, st: Store): (r: (Reply<TotalBody>, AppCache))
    ensures TotalHit(c, now) ==>
      r.0 == Ok(TotalBody(TtlCache.Get(c, TotalPoppedKey, now).value.total)) && r.1 == c
    ensures !TotalHit(c, now) && |st.counts| > 0 ==> r.0 == Ok(TotalBody(TotalCount(st.counts)))
    ensures !TotalHit(c, now) && |st.counts| == 0 ==> r.0.Fail? && r.0.status == 500 && r.1 == c
  {
    var (v, c') := FetchTotalPopped(c, now, st.counts);
    match v
    case Success(total) => (Ok(TotalBody(total)), c')
    case Failure(message) => (Fail(500, message), c')
  }

  /** Popping one balloon somewhere is invisible to the total while a non-zero total is cached. */
  lemma TotalLagsWhileCached(c: AppCache, t0: int, st: Store, st2: Store, t: int)
    requires !TotalHit(c, t0)
    requires TotalCount(st.counts) != 0
    requires t0 <= t <= t0 + TotalPoppedTtl * 1000
    ensures GetTotal(GetTotal(c, t0, st).1, t, st2).0 == Ok(TotalBody(TotalCount(st.counts)))
  {
    StaleTotalServed(c, t0, st.counts, st2.counts, t);
  }

  // ---------------------------------------------------------------------------
  // GET /history: validation

  /** A date query parameter: absent, present but not ISO-8601, or an instant (ms). */
  datatype DateParam = Missing | Malformed | Instant(t: int)

  /** `new Date(2024, 6, 1)`: the first instant history may be asked from (1 July 2024). */
  const HistoryStart: int := 1719792000000

  datatype DateError = StartNotIso | StartAfterEnd | StartBeforeHistory | EndNotIso

  function DateErrorMessage(e: DateError): string {
    match e
    case StartNotIso => "Invalid value"
    case StartAfterEnd => "Start date must be before end date"
    case StartBeforeHistory => "Start date must be after 2024-07-01"
    case EndNotIso => "Invalid value"
  }

  /** The validator chain: `start-date` must be ISO-8601, and its custom check throws
      on the first of "after end-date" and "before 1 July 2024" (comparisons with an
      invalid date are false, so they need both instants); `end-date` is optional but
      must be ISO-8601 when present. */
  function ValidateHistoryQuery(start: DateParam, end: DateParam): (errs: seq<DateError>)
    ensures errs == [] <==>
      && start.Instant? && start.t >= HistoryStart
      && !end.Malformed?
      && (end.Instant? ==> start.t <= end.t)
    ensures StartAfterEnd in errs <==> start.Instant? && end.Instant? && start.t > end.t
    ensures StartBeforeHistory in errs ==> start.Instant? && start.t < HistoryStart
    ensures !(StartAfterEnd in errs && StartBeforeHistory in errs)
  {
    var startErrors := if start.Instant? then [] else [StartNotIso];
    var customErrors :=
      if start.Instant? && end.Instant? && start.t > end.t then [StartAfterEnd]
      else if start.Instant? && start.t < HistoryStart then [StartBeforeHistory]
      else [];
    var endErrors := if end.Malformed? then [EndNotIso] else [];
    startErrors + customErrors + endErrors
  }

  /** A start date equal to the end date is accepted; one day earlier than 1 July 2024 is not. */
  lemma HistoryBoundaries(t: int)
    ensures t >= HistoryStart ==> ValidateHistoryQuery(Instant(t), Instant(t)) == []
    ensures ValidateHistoryQuery(Instant(HistoryStart - 86400000), Missing) == [StartBeforeHistory]
  {
  }

  // ---------------------------------------------------------------------------
  // GET /history: the response

  /** A pop event: its creation time (from its ObjectId) and its balloon type id. */
  datatype HistoryNode = HistoryNode(createdAt: int, balloonType: int)

  /** One response entry: when, and the resolved balloon name. */
  datatype HistoryItem = HistoryItem(date: int, balloonType: string)

  function TypesOf(nodes: seq<HistoryNode>): (ts: seq<int>)
    ensures |ts| == |nodes|
    ensures forall i :: 0 <= i < |nodes| ==> ts[i] == nodes[i].balloonType
  {
    seq(|nodes|, i requires 0 <= i < |nodes| => nodes[i].balloonType)
  }

  /** A value met for the first time at `k` has index `k`. */
  lemma IndexOfFirstMeeting(s: seq<int>, k: int)
    requires 0 <= k < |s|
    requires s[k] !in s[..k]
    ensures IndexOf(s, s[k]) == k
  {
    assert forall j :: 0 <= j < k ==> s[..k][j] == s[j];
  }

  /** A value missing from the set of the first `k` values is not in the prefix. */
  lemma FirstMeeting(types: seq<int>, k: int, u: seq<int>)
    requires 0 <= k < |types|
    requires forall j :: 0 <= j < k ==> types[j] in u
    requires types[k] !in u
    ensures types[k] !in types[..k]
  {
    forall j | 0 <= j < k ensures types[j] != types[k] {
      assert types[j] in u;
    }
  }

  /** `[...new Set(types)]`: each type once, in order of first occurrence. */
  method UniqueTypes(types: seq<int>) returns (u: seq<int>)
    ensures Distinct(u)
    ensures forall x :: x in u <==> x in types
    ensures forall i, j :: 0 <= i < j < |u| ==> IndexOf(types, u[i]) < IndexOf(types, u[j])
  {
    u := [];
    var k := 0;
    while k < |types|
      invariant 0 <= k <= |types|
      invariant Distinct(u)
      invariant forall j :: 0 <= j < k ==> types[j] in u
      invariant forall x :: x in u ==> x in types
      invariant forall i :: 0 <= i < |u| ==> 0 <= IndexOf(types, u[i]) < k
      invariant forall i, j :: 0 <= i < j < |u| ==> IndexOf(types, u[i]) < IndexOf(types, u[j])
    {
      if types[k] !in u {
        FirstMeeting(types, k, u);
        IndexOfFirstMeeting(types, k);
        u := u + [types[k]];
      }
      k := k + 1;
    }
  }

  /** One `fetchBalloonName` call per distinct type, in order; `calls` records them. */
  method ResolveNames(u: seq<int>, nameOf: int -> string) returns (names: seq<string>, calls: seq<int>)
    ensures |names| == |u|
    ensures forall i :: 0 <= i < |u| ==> names[i] == nameOf(u[i])
    ensures calls == u
  {
    names, calls := [], [];
    var k := 0;
    while k < |u|
      invariant 0 <= k <= |u|
      invariant |names| == k
      invariant forall i :: 0 <= i < k ==> names[i] == nameOf(u[i])
      invariant calls == u[..k]
    {
      names := names + [nameOf(u[k])];
      calls := calls + [u[k]];
      k := k + 1;
    }
  }

  /** `history.map(...)`: each node's date and `types[uniqueTypes.indexOf(type)]`. */
  method BuildItems(nodes: seq<HistoryNode>, u: seq<int>, names: seq<string>, ghost nameOf: int -> string)
    returns (items: seq<HistoryItem>)
    requires |names| == |u|
    requires forall i :: 0 <= i < |u| ==> names[i] == nameOf(u[i])
    requires forall i :: 0 <= i < |nodes| ==> nodes[i].balloonType in u
    ensures |items| == |nodes|
    ensures forall i :: 0 <= i < |nodes| ==>
      items[i] == HistoryItem(nodes[i].createdAt, nameOf(nodes[i].balloonType))
  {
    items := [];
    var k := 0;
    while k < |nodes|
      invariant 0 <= k <= |nodes|
      invariant |items| == k
      invariant forall i :: 0 <= i < k ==>
        items[i] == HistoryItem(nodes[i].createdAt, nameOf(nodes[i].balloonType))
    {
      var idx := IndexOf(u, nodes[k].balloonType);
      items := items + [HistoryItem(nodes[k].createdAt, names[idx])];
      k := k + 1;
    }
  }

  /** The history handler. `fetchHistory` and `nameOf` stand for the store lookups
      `fetchHistory(start, end)` and `fetchBalloonName(type)`; `fetched` and `nameCalls`
      record the calls made to them. */
  method GetHistory(start: DateParam, end: DateParam, now: int,
                    fetchHistory: (int, int) -> seq<HistoryNode>, nameOf: int -> string)
    returns (reply: Reply<seq<HistoryItem>>, fetched: Option<(int, int)>, nameCalls: seq<int>)
    ensures ValidateHistoryQuery(start, end) != [] ==>
      reply.Fail? && reply.status == 400 && fetched.None? && nameCalls == []
    ensures ValidateHistoryQuery(start, end) == [] ==>
      var range := (start.t, if end.Instant? then end.t else now);
      var nodes := fetchHistory(range.0, range.1);
      && fetched == Some(range)
      && reply.Ok? && |reply.body| == |nodes|
      && (forall i :: 0 <= i < |nodes| ==>
            reply.body[i] == HistoryItem(nodes[i].createdAt, nameOf(nodes[i].balloonType)))
      && Distinct(nameCalls)
      && (forall x :: x in nameCalls <==> x in TypesOf(nodes))
  {
    var errs := ValidateHistoryQuery(start, end);
    if errs != [] {
      return Fail(400, DateErrorMessage(errs[0])), None, [];
    }
    var startDate := start.t;
    var endDate := if end.Instant? then end.t else now;
    var nodes := fetchHistory(startDate, endDate);
    fetched := Some((startDate, endDate));
    var types := TypesOf(nodes);
    var u := UniqueTypes(types);
    var names;
    names, nameCalls := ResolveNames(u, nameOf);
    assert forall i :: 0 <= i < |nodes| ==> nodes[i].balloonType in u by {
      forall i | 0 <= i < |nodes| ensures nodes[i].balloonType in u {
        assert types[i] in types;
      }
    }
    var items := BuildItems(nodes, u, names, nameOf);
    reply := Ok(items);
  }
}

=== FILE: ttl_cache.dfy ===
/** The in-process `node-cache` instance: a map from key to the stored value and the
    instant (milliseconds) after which it is dead. A TTL is given in seconds; a TTL of
    0 stores the value without an expiry. */
module TtlCache {
  import opened Wrappers

  /** A stored value and its expiry instant; `None` for a value that never expires. */
  datatype Slot<V> = Slot(value: V, expiresAt: Option<int>)

  type Cache<V> = map<string, Slot<V>>

  /** Whether a slot is still alive at `now`: it has no expiry or `now` has not passed it. */
  predicate Alive<V>(s: Slot<V>, now: int) {
    s.expiresAt.None? || now <= s.expiresAt.value
  }

  /** `cache.get(key)` at time `now`: the stored value while it is alive, otherwise nothing. */
  function Get<V>(c: Cache<V>, key: string, now: int): (r: Option<V>)
    ensures r.Some? <==> key in c && Alive(c[key], now)
    ensures r.Some? ==> r.value == c[key].value
  {
    if key in c && Alive(c[key], now) then Some(c[key].value) else None
  }

  /** `cache.set(key, value, ttl)` at time `now`. */
  function Set<V>(c: Cache<V>, key: string, value: V, ttl: nat, now: int): (c': Cache<V>)
    ensures forall t :: now <= t <= now + ttl * 1000 ==> Get(c', key, t) == Some(value)
    ensures ttl > 0 ==> forall t :: now + ttl * 1000 < t ==> Get(c', key, t) == None
    ensures ttl == 0 ==> forall t :: Get(c', key, t) == Some(value)
    ensures forall k, t :: k != key ==> Get(c', k, t) == Get(c, k, t)
  {
    c[key := Slot(value, if ttl == 0 then None else Some(now + ttl * 1000))]
  }
}

=== FILE: user_route.dfy ===
/** The `/user` routes: reading a user or its count, incrementing the count, creating
    a user and updating one, as transitions of the document store. The caller id is
    the id carried by the request's verified token, if any. */
module UserRoute {
  import opened Wrappers
  import opened Records
  import opened Utils
  import opened Decimal

  const UserNotFound: string := "User not found"
  const CountNotFound: string := "Count not found"
  const ForbiddenMessage: string := "Forbidden"
  const AlreadyExists: string := "User already exists"
  const SomethingWentWrong: string := "Something went wrong"
  /** The validation message `count.save()` throws for a `NaN` count. */
  const NotANumberMessage: string := "Count validation failed: count: Cast to Number failed for value \"NaN\" (type number) at path \"count\""

  /** The validation message `count.save()` throws for a negative count `v`, which it
      quotes between these two parts. */
  const BelowMinimumPrefix: string := "Count validation failed: count: Path `count` ("
  const BelowMinimumSuffix: string := ") is less than minimum allowed value (0)."

  function BelowMinimumMessage(v: int): string
    requires v < 0
  {
    BelowMinimumPrefix + ("-" + Show(-v)) + BelowMinimumSuffix
  }

  /** The body of `GET /:id/count` and of a successful increment. */
  datatype CountView = CountView(id: Id, count: int, updatedAt: int)

  // ---------------------------------------------------------------------------
  // GET /:id

  /** An id that is not an ObjectId makes `User.findById` reject, and the catch turns
      that into a 500 carrying the cast error's message. */
  function GetUser(st: Store, id: Id): (r: Reply<UserView>)
    ensures !IsObjectId(id) ==> r == Fail(500, CastMessage(id, UserModel))
    ensures r.Ok? <==> IsObjectId(id) && id in st.users && FindCount(st.counts, id).Some?
    ensures IsObjectId(id) && id !in st.users ==> r == Fail(404, UserNotFound)
    ensures IsObjectId(id) && id in st.users && FindCount(st.counts, id).None? ==> r == Fail(404, CountNotFound)
    ensures r.Ok? ==>
      && r.body == FormatUser(st.users[id], FindCount(st.counts, id).value, None)
      && r.body.email.None?
      && r.body.username == st.users[id].username
      && r.body.count == FindCount(st.counts, id).value.count
      && r.body.updatedAt == st.users[id].updatedAt
  {
    if !IsObjectId(id) then Fail(500, CastMessage(id, UserModel))
    else if id !in st.users then Fail(404, UserNotFound)
    else match FindCount(st.counts, id)
      case None => Fail(404, CountNotFound)
      case Some(c) => Ok(FormatUser(st.users[id], c, None))
  }

  // ---------------------------------------------------------------------------
  // GET /:id/count

  /** Only the counts collection is consulted: a count record without a user is
      still reported. An id that is not an ObjectId gets the cast error as a 500. */
  function GetCount(st: Store, id: Id): (r: Reply<CountView>)
    ensures !IsObjectId(id) ==> r == Fail(500, CastMessage(id, CountModel))
    ensures r.Ok? <==> IsObjectId(id) && FindCount(st.counts, id).Some?
    ensures IsObjectId(id) && r.Fail? ==> r == Fail(404, UserNotFound)
    ensures r.Ok? ==>
      exists c :: c in st.counts && c.id == id && r.body == CountView(id, c.count, c.updatedAt)
  {
    if !IsObjectId(id) then Fail(500, CastMessage(id, CountModel))
    else match FindCount(st.counts, id)
      case None => Fail(404, UserNotFound)
      case Some(c) => Ok(CountView(c.id, c.count, c.updatedAt))
  }

  /** The count route ignores the users collection. */
  lemma GetCountIgnoresUsers(st: Store, users: map<Id, UserRec>, id: Id)
    ensures GetCount(st, id) == GetCount(Store(users, st.counts), id)
  {
  }

  // ---------------------------------------------------------------------------
  // POST /:id/count/increment

  /** The lookup comes first, so an id that is not an ObjectId gets the cast error as a
      500 before either check; existence is checked before ownership; on success the
      count goes up by one and the pre-save hook stamps `updatedAt`. */
  function Increment(st: Store, id: Id, callerId: Option<Id>, now: int): (r: (Reply<CountView>, Store))
    ensures !IsObjectId(id) ==> r == (Fail(500, CastMessage(id, CountModel)), st)
    ensures IsObjectId(id) && FindCount(st.counts, id).None? ==> r == (Fail(404, UserNotFound), st)
    ensures IsObjectId(id) && FindCount(st.counts, id).Some? && callerId != Some(id) ==>
      r == (Fail(403, ForbiddenMessage), st)
    ensures r.0.Ok? <==> IsObjectId(id) && FindCount(st.counts, id).Some? && callerId == Some(id)
    ensures r.0.Ok? ==>
      && r.0.body == CountView(id, FindCount(st.counts, id).value.count + 1, now)
      && FindCount(r.1.counts, id) == Some(CountRec(id, r.0.body.count, now))
    ensures r.1.users == st.users
    ensures forall other :: other != id ==> FindCount(r.1.counts, other) == FindCount(st.counts, other)
    ensures Valid(st) ==> Valid(r.1)
  {
    if !IsObjectId(id) then (Fail(500, CastMessage(id, CountModel)), st)
    else match FindCount(st.counts, id)
    case None => (Fail(404, UserNotFound), st)
    case Some(c) =>
      if callerId != Some(id) then (Fail(403, ForbiddenMessage), st)
      else
        var bumped := CountRec(c.id, c.count + 1, now);
        FindAfterReplace(st.counts, bumped, id);
        assert forall other :: other != id ==>
          FindCount(Replace(st.counts, bumped), other) == FindCount(st.counts, other) by {
          forall other | other != id {
            FindAfterReplace(st.counts, bumped, other);
          }
        }
        assert Valid(st) ==> DistinctIds(Replace(st.counts, bumped)) by {
          if Valid(st) {
            ReplaceKeepsDistinct(st.counts, bumped);
          }
        }
        (Ok(CountView(bumped.id, bumped.count, bumped.updatedAt)), Store(st.users, Replace(st.counts, bumped)))
  }

  /** A successful increment adds exactly one to the popped total. */
  lemma IncrementAddsOneToTotal(st: Store, id: Id, callerId: Option<Id>, now: int)
    requires Valid(st)
    requires Increment(st, id, callerId, now).0.Ok?
    ensures TotalCount(Increment(st, id, callerId, now).1.counts) == TotalCount(st.counts) + 1
  {
    var c := FindCount(st.counts, id).value;
    var bumped := CountRec(id, c.count + 1, now);
    assert Increment(st, id, callerId, now).1.counts == Replace(st.counts, bumped);
    TotalAfterReplace(st.counts, c, bumped);
  }

  /** After a successful increment the count route reports the new value. */
  lemma IncrementThenGetCount(st: Store, id: Id, callerId: Option<Id>, now: int)
    requires Increment(st, id, callerId, now).0.Ok?
    ensures var (reply, st1) := Increment(st, id, callerId, now);
      GetCount(st1, id) == reply
  {
  }

  /** Without the owner's token nothing changes, whoever asks. */
  lemma IncrementNeedsOwner(st: Store, id: Id, callerId: Option<Id>, now: int)
    requires callerId != Some(id)
    ensures Increment(st, id, callerId, now).1 == st
    ensures Increment(st, id, callerId, now).0.Fail?
  {
  }

  // ---------------------------------------------------------------------------
  // POST /new

  /** `User.findOne({ $or: [{ username }, { email }] })` finds someone. An absent
      parameter becomes a `null` condition, which matches a user lacking that field. */
  predicate Taken(st: Store, username: Option<string>, email: Option<string>) {
    exists id :: id in st.users && (st.users[id].username == username || st.users[id].email == email)
  }

  /** The count `initialCount` asks for, if saving it succeeds: absent (or empty)
      keeps the default 0; `parseInt` giving `NaN` or a negative number fails
      validation against the schema's `min: 0`. */
  function InitialCount(q: QueryInt): (r: Result<nat>)
    ensures r.Success? <==> q.Absent? || (q.Num? && q.v >= 0)
    ensures q.Num? && r.Success? ==> r.value == q.v
    ensures q.Absent? ==> r == Success(0)
    ensures q.NotANumber? ==> r == Failure(NotANumberMessage)
    ensures q.Num? && q.v < 0 ==> r == Failure(BelowMinimumMessage(q.v))
  {
    match q
    case Absent => Success(0)
    case NotANumber => Failure(NotANumberMessage)
    case Num(v) => if v < 0 then Failure(BelowMinimumMessage(v)) else Success(v)
  }

  /** `initialCount=-5` fails with the message that quotes -5. */
  lemma NegativeInitialCountMessage()
    ensures InitialCount(Num(-5)) == Failure(BelowMinimumPrefix + "-5" + BelowMinimumSuffix)
  {
    assert Show(5) == [DigitChar(5)] == "5";
    assert "-" + Show(5) == "-5";
  }

  /** Registration. `newId` is the fresh ObjectId of the new user and `now` the save
      time. The user's pre-save hook starts an un-awaited save of a zero count;
      `countVisible` says whether that save has landed by the time the handler reads
      it back. The count record is written either way. */
  function NewUser(st: Store, username: Option<string>, email: Option<string>, password: Option<string>,
                   initialCount: QueryInt, newId: Id, now: int, countVisible: bool): (r: (Reply<UserView>, Store))
    requires newId !in st.users && FindCount(st.counts, newId).None?
    ensures Taken(st, username, email) ==> r == (Fail(400, AlreadyExists), st)
    ensures r.0.Ok? <==> !Taken(st, username, email) && countVisible && InitialCount(initialCount).Success?
    ensures !Taken(st, username, email) && !countVisible ==> r.0 == Fail(500, SomethingWentWrong)
    ensures !Taken(st, username, email) && countVisible && InitialCount(initialCount).Failure? ==>
      r.0 == Fail(500, InitialCount(initialCount).error)
    ensures !Taken(st, username, email) ==>
      && r.1.users == st.users[newId := UserRec(newId, username, email, password, now, now)]
      && FindCount(r.1.counts, newId).Some?
      && FindCount(r.1.counts, newId).value.count == (if r.0.Ok? then InitialCount(initialCount).value else 0)
    ensures forall other :: other != newId ==> FindCount(r.1.counts, other) == FindCount(st.counts, other)
    ensures r.0.Ok? ==>
      && r.0.body == FormatUser(r.1.users[newId], FindCount(r.1.counts, newId).value, None)
      && r.0.body.id == newId
      && r.0.body.username == username
      && r.0.body.email.None?
      && r.0.body.count == InitialCount(initialCount).value
    ensures Valid(st) ==> Valid(r.1)
  {
    if Taken(st, username, email) then (Fail(400, AlreadyExists), st)
    else
      var user := UserRec(newId, username, email, password, now, now);
      var users := st.users[newId := user];
      var zero := CountRec(newId, 0, now);
      var saved := Store(users, st.counts + [zero]);
      AppendNew(st.counts, zero);
      if !countVisible then (Fail(500, SomethingWentWrong), saved)
      else match InitialCount(initialCount)
        case Failure(message) => (Fail(500, message), saved)
        case Success(n) =>
          var asked := CountRec(newId, n, now);
          AppendNew(st.counts, asked);
          (Ok(FormatUser(user, asked, None)), Store(users, st.counts + [asked]))
  }

  /** Appending a record under an id the collection lacks: it is found under that id,
      every other lookup is unchanged, and ids stay unique. */
  lemma AppendNew(counts: seq<CountRec>, rec: CountRec)
    requires FindCount(counts, rec.id).None?
    ensures forall id :: FindCount(counts + [rec], id) == if id == rec.id then Some(rec) else FindCount(counts, id)
    ensures DistinctIds(counts) ==> DistinctIds(counts + [rec])
  {
    forall id {
      FindAfterAppend(counts, rec, id);
    }
    if DistinctIds(counts) {
      AppendKeepsDistinct(counts, rec);
    }
  }

  /** A registered user can be read back exactly as the registration answered. */
  lemma NewUserThenGetUser(st: Store, username: Option<string>, email: Option<string>, password: Option<string>,
                           initialCount: QueryInt, newId: Id, now: int)
    requires IsObjectId(newId)
    requires newId !in st.users && FindCount(st.counts, newId).None?
    requires NewUser(st, username, email, password, initialCount, newId, now, true).0.Ok?
    ensures var (reply, st1) := NewUser(st, username, email, password, initialCount, newId, now, true);
      GetUser(st1, newId) == reply
  {
  }

  /** Once a name is registered, registering it again is refused, whatever the email. */
  lemma NameTakenAfterRegistration(st: Store, name: string, email: Option<string>, password: Option<string>,
                                   initialCount: QueryInt, newId: Id, now: int, countVisible: bool,
                                   email2: Option<string>, password2: Option<string>, initialCount2: QueryInt,
                                   newId2: Id, now2: int, countVisible2: bool)
    requires newId !in st.users && FindCount(st.counts, newId).None?
    requires !Taken(st, Some(name), email)
    requires var st1 := NewUser(st, Some(name), email, password, initialCount, newId, now, countVisible).1;
      newId2 !in st1.users && FindCount(st1.counts, newId2).None?
    ensures var st1 := NewUser(st, Some(name), email, password, initialCount, newId, now, countVisible).1;
      NewUser(st1, Some(name), email2, password2, initialCount2, newId2, now2, countVisible2) == (Fail(400, AlreadyExists), st1)
  {
    var st1 := NewUser(st, Some(name), email, password, initialCount, newId, now, countVisible).1;
    assert st1.users[newId].username == Some(name);
  }

  // ---------------------------------------------------------------------------
  // PUT /:id

  /** A field of the update: Mongoose drops keys whose value is `undefined`, so an
      absent parameter keeps the stored value. */
  function Patch(given: Option<string>, current: Option<string>): (r: Option<string>)
    ensures given.Some? ==> r == given
    ensures given.None? ==> r == current
  {
    if given.Some? then given else current
  }

  /** The update route. Ownership is checked before any lookup; an id that is not an
      ObjectId then gets the cast error of `User.findByIdAndUpdate` as a 500. `findByIdAndUpdate`
      writes the patched fields at once; only the later `user.save()` (reached when
      the count exists) stamps `updatedAt`. No uniqueness check is made. */
  function UpdateUser(st: Store, id: Id, callerId: Option<Id>,
                      username: Option<string>, email: Option<string>, password: Option<string>,
                      now: int): (r: (Reply<UserView>, Store))
    ensures callerId != Some(id) ==> r == (Fail(403, ForbiddenMessage), st)
    ensures callerId == Some(id) && !IsObjectId(id) ==> r == (Fail(500, CastMessage(id, UserModel)), st)
    ensures callerId == Some(id) && IsObjectId(id) && id !in st.users ==> r == (Fail(404, UserNotFound), st)
    ensures r.0.Ok? <==> callerId == Some(id) && IsObjectId(id) && id in st.users && FindCount(st.counts, id).Some?
    ensures r.1.counts == st.counts
    ensures r.1.users.Keys == st.users.Keys
    ensures callerId == Some(id) && IsObjectId(id) && id in st.users && FindCount(st.counts, id).None? ==>
      r.0 == Fail(404, CountNotFound) && r.1.users[id].updatedAt == st.users[id].updatedAt
    ensures forall other :: other in st.users && other != id ==> r.1.users[other] == st.users[other]
    ensures callerId == Some(id) && IsObjectId(id) && id in st.users ==>
      var (before, after) := (st.users[id], r.1.users[id]);
      && after.id == before.id
      && after.createdAt == before.createdAt
      && (username.Some? ==> after.username == username)
      && (username.None? ==> after.username == before.username)
      && (email.Some? ==> after.email == email)
      && (email.None? ==> after.email == before.email)
      && (password.Some? ==> after.password == password)
      && (password.None? ==> after.password == before.password)
    ensures r.0.Ok? ==>
      && r.0.body == FormatUser(r.1.users[id], FindCount(st.counts, id).value, None)
      && r.1.users[id].updatedAt == now
      && r.0.body.email.None?
      && r.0.body.count == FindCount(st.counts, id).value.count
    ensures Valid(st) ==> Valid(r.1)
  {
    if callerId != Some(id) then (Fail(403, ForbiddenMessage), st)
    else if !IsObjectId(id) then (Fail(500, CastMessage(id, UserModel)), st)
    else if id !in st.users then (Fail(404, UserNotFound), st)
    else
      var u := st.users[id];
      var patched := u.(username := Patch(username, u.username), email := Patch(email, u.email),
                        password := Patch(password, u.password));
      match FindCount(st.counts, id)
      case None => (Fail(404, CountNotFound), Store(st.users[id := patched], st.counts))
      case Some(c) =>
        var saved := patched.(updatedAt := now);
        (Ok(FormatUser(saved, c, None)), Store(st.users[id := saved], st.counts))
  }

  /** An updated user reads back exactly as the update answered. */
  lemma UpdateThenGetUser(st: Store, id: Id, callerId: Option<Id>,
                          username: Option<string>, email: Option<string>, password: Option<string>, now: int)
    requires UpdateUser(st, id, callerId, username, email, password, now).0.Ok?
    ensures var (reply, st1) := UpdateUser(st, id, callerId, username, email, password, now);
      GetUser(st1, id) == reply
  {
  }

  /** The update takes a username another user already holds: after it, two users
      share that name, which registration would have refused. */
  lemma UpdateAllowsTakenName(st: Store, id: Id, other: Id, name: string, now: int)
    requires IsObjectId(id) && id in st.users && FindCount(st.counts, id).Some?
    requires other in st.users && other != id && st.users[other].username == Some(name)
    ensures var (reply, st1) := UpdateUser(st, id, Some(id), Some(name), None, None, now);
      && reply.Ok?
      && st1.users[id].username == st1.users[other].username == Some(name)
  {
  }
}

=== FILE: utils.dfy ===
/** The shared helpers of the service: origin test, user formatting, and the
    leaderboard engine (page, total, rank) behind its TTL cache. */
module Utils {
  import opened Wrappers
  import opened Records
  import opened Ordering
  import Decimal
  import TtlCache

  // ---------------------------------------------------------------------------
  // Origins

  /** The one Chrome extension allowed to call the API. */
  const ChromeOrigin: string := "chrome-extension://pahcoancbdjmffpmfbnjablnabomdocp"

  /** Every Firefox extension origin starts with this. */
  const MozPrefix: string := "moz-extension://"

  /** `s.startsWith(p)`. */
  function StartsWith(s: string, p: string): (r: bool)
    ensures r <==> |p| <= |s| && s[..|p|] == p
  {
    if |p| == 0 then true
    else |s| > 0 && s[0] == p[0] && StartsWith(s[1..], p[1..])
  }

  /** The CORS origin check: the fixed Chrome extension, or any Firefox extension. */
  function TestOrigin(origin: string): (r: bool)
    ensures r <==> origin == ChromeOrigin || exists rest :: origin == MozPrefix + rest
  {
    if origin == ChromeOrigin then true
    else if StartsWith(origin, MozPrefix) then
      assert origin == MozPrefix + origin[|MozPrefix|..];
      true
    else
      false
  }

  /** Every Firefox extension origin passes, whatever follows the scheme. */
  lemma AnyFirefoxExtensionAccepted(rest: string)
    ensures TestOrigin(MozPrefix + rest)
  {
  }

  /** Another Chrome extension, or the scheme written without its slashes, is refused. */
  lemma OtherOriginsRefused()
    ensures !TestOrigin("chrome-extension://x")
    ensures !TestOrigin("moz-extension:")
    ensures !TestOrigin("https://moz-extension://x")
  {
    assert "https://moz-extension://x"[0] != MozPrefix[0];
    assert "chrome-extension://x"[0] != MozPrefix[0];
  }

  // ---------------------------------------------------------------------------
  // User formatting

  /** The public shape of a user in every response. */
  datatype UserView = UserView(
    id: Id,
    username: Option<string>,
    email: Option<string>,
    count: int,
    updatedAt: int,
    createdAt: int)

  /** `formatUser(user, count, jwt)`: the e-mail is shown only to its owner. */
  function FormatUser(user: UserRec, count: CountRec, jwt: Option<Id>): (v: UserView)
    ensures v.email.Some? ==> jwt == Some(user.id) && v.email == user.email
    ensures jwt == Some(user.id) ==> v.email == user.email
    ensures v.id == user.id && v.username == user.username
    ensures v.count == count.count
    ensures v.updatedAt == user.updatedAt && v.createdAt == user.createdAt
  {
    UserView(
      user.id,
      user.username,
      if jwt.Some? && jwt.value == user.id then user.email else None,
      count.count,
      user.updatedAt,
      user.createdAt)
  }

  // ---------------------------------------------------------------------------
  // The cache and its keys

  /** What the one cache instance holds: leaderboard pages and the popped total. */
  datatype Cached = CachedPage(page: seq<Joined>) | CachedTotal(total: int)

  type AppCache = TtlCache.Cache<Cached>

  const LeaderboardTtl: nat := 60
  const TotalPoppedTtl: nat := 5 * 60
  const TotalPoppedKey: string := "totalPopped"
  const LeaderboardPrefix: string := "leaderboard-"

  /** `${cacheLocation.leaderboard}-${limit}-${skip}`. */
  function LeaderboardKey(limit: nat, skip: nat): string {
    LeaderboardPrefix + Decimal.Show(limit) + "-" + Decimal.Show(skip)
  }

  /** In a leaderboard key the first dash after the prefix ends the limit's digits. */
  lemma DashAfterDigits(k: string, digits: string, rest: string)
    requires k == LeaderboardPrefix + digits + "-" + rest
    requires forall i :: 0 <= i < |digits| ==> Decimal.IsDigit(digits[i])
    ensures k[|LeaderboardPrefix| + |digits|] == '-'
    ensures forall i :: |LeaderboardPrefix| <= i < |LeaderboardPrefix| + |digits| ==> k[i] != '-'
  {
    forall i | |LeaderboardPrefix| <= i < |LeaderboardPrefix| + |digits|
      ensures k[i] != '-'
    {
      assert k[i] == digits[i - |LeaderboardPrefix|];
    }
  }

  /** Distinct (limit, skip) pairs never share a cache entry. */
  lemma LeaderboardKeyInjective(l1: nat, s1: nat, l2: nat, s2: nat)
    requires LeaderboardKey(l1, s1) == LeaderboardKey(l2, s2)
    ensures l1 == l2 && s1 == s2
  {
    var a, b := Decimal.Show(l1), Decimal.Show(l2);
    var k := LeaderboardKey(l1, s1);
    var p := |LeaderboardPrefix|;
    assert k == LeaderboardPrefix + a + "-" + Decimal.Show(s1);
    assert k == LeaderboardPrefix + b + "-" + Decimal.Show(s2);
    DashAfterDigits(k, a, Decimal.Show(s1));
    DashAfterDigits(k, b, Decimal.Show(s2));
    assert |a| == |b|;
    assert a == k[p..p + |a|] == b;
    Decimal.ShowInjective(l1, l2);
    assert Decimal.Show(s1) == k[p + |a| + 1..] == Decimal.Show(s2);
    Decimal.ShowInjective(s1, s2);
  }

  /** A leaderboard page never lands on the total's entry. */
  lemma LeaderboardKeyIsNotTotalKey(limit: nat, skip: nat)
    ensures LeaderboardKey(limit, skip) != TotalPoppedKey
  {
    assert LeaderboardKey(limit, skip)[0] == 'l';
  }

  // ---------------------------------------------------------------------------
  // fetchLeaderboard

  /** The ranked population: every named record, in an admissible `count`-descending order. */
  function Ranked(st: Store): (o: seq<Joined>)
    ensures SortedArrangement(o, Named(st.counts, st.users))
    ensures |o| == |Named(st.counts, st.users)|
  {
    assert |multiset(SortByCount(Named(st.counts, st.users)))| == |multiset(Named(st.counts, st.users))|;
    SortByCount(Named(st.counts, st.users))
  }

  /** `$skip: skip` followed by `$limit: limit`. */
  function Window(xs: seq<Joined>, skip: nat, limit: nat): (w: seq<Joined>)
    ensures |w| <= limit
    ensures skip >= |xs| ==> w == []
    ensures skip < |xs| ==> |w| == if skip + limit <= |xs| then limit else |xs| - skip
    ensures forall i :: 0 <= i < |w| ==> skip + i < |xs| && w[i] == xs[skip + i]
  {
    if skip >= |xs| then []
    else if skip + limit <= |xs| then xs[skip..skip + limit]
    else xs[skip..]
  }

  /** Consecutive windows of one sequence join into the window spanning both, with no
      gap and no overlap. */
  lemma WindowsJoin(xs: seq<Joined>, skip: nat, a: nat, b: nat)
    ensures Window(xs, skip, a) + Window(xs, skip + a, b) == Window(xs, skip, a + b)
  {
    var l, r, w := Window(xs, skip, a), Window(xs, skip + a, b), Window(xs, skip, a + b);
    assert |l + r| == |w|;
    forall i | 0 <= i < |w| ensures (l + r)[i] == w[i] {
      if i >= |l| {
        assert (l + r)[i] == r[i - |l|];
      }
    }
  }

  /** The leaderboard aggregation on a cache miss: named users only, highest count
      first, then the `[skip, skip + limit)` slice of that order. */
  function LeaderboardPage(st: Store, limit: nat, skip: nat): (page: seq<Joined>)
    ensures |page| <= limit
    ensures skip >= |Named(st.counts, st.users)| ==> page == []
    ensures skip < |Named(st.counts, st.users)| ==>
      |page| == if skip + limit <= |Named(st.counts, st.users)| then limit else |Named(st.counts, st.users)| - skip
    ensures NonIncreasing(page)
    ensures forall i :: 0 <= i < |page| ==> skip + i < |Ranked(st)| && page[i] == Ranked(st)[skip + i]
    ensures forall e :: e in page ==>
      e.rec in st.counts && e.rec.id in st.users && e.user == st.users[e.rec.id] && Listed(e.user)
  {
    var o := Ranked(st);
    var w := Window(o, skip, limit);
    WindowFromPopulation(o, Named(st.counts, st.users), skip, limit);
    NamedMembers(st.counts, st.users);
    w
  }

  /** A window of a sorted arrangement is sorted and holds only members of the population. */
  lemma WindowFromPopulation(o: seq<Joined>, population: seq<Joined>, skip: nat, limit: nat)
    requires SortedArrangement(o, population)
    ensures NonIncreasing(Window(o, skip, limit))
    ensures forall e :: e in Window(o, skip, limit) ==> e in population
  {
    var w := Window(o, skip, limit);
    forall e | e in w ensures e in population {
      var i :| 0 <= i < |w| && w[i] == e;
      assert o[skip + i] in multiset(o);
    }
  }

  /** A cached value that `fetchLeaderboard` would serve: a page (an array is always
      truthy, even an empty one). */
  predicate PageHit(c: AppCache, key: string, now: int) {
    var g := TtlCache.Get(c, key, now);
    g.Some? && g.value.CachedPage?
  }

  /** `fetchLeaderboard(limit, skip)`: serve a live cached page for this key, or run the
      aggregation and cache its result for 60 seconds. */
  function FetchLeaderboard(c: AppCache, now: int, st: Store, limit: nat, skip: nat)
    : (r: (seq<Joined>, AppCache))
    requires 1 <= limit
    ensures PageHit(c, LeaderboardKey(limit, skip), now) ==>
      r.0 == TtlCache.Get(c, LeaderboardKey(limit, skip), now).value.page && r.1 == c
    ensures !PageHit(c, LeaderboardKey(limit, skip), now) ==>
      && r.0 == LeaderboardPage(st, limit, skip)
      && forall t :: now <= t <= now + LeaderboardTtl * 1000 ==>
           TtlCache.Get(r.1, LeaderboardKey(limit, skip), t) == Some(CachedPage(r.0))
    ensures forall k, t :: k != LeaderboardKey(limit, skip) ==> TtlCache.Get(r.1, k, t) == TtlCache.Get(c, k, t)
  {
    var key := LeaderboardKey(limit, skip);
    if PageHit(c, key, now) then (TtlCache.Get(c, key, now).value.page, c)
    else
      var page := LeaderboardPage(st, limit, skip);
      (page, TtlCache.Set(c, key, CachedPage(page), LeaderboardTtl, now))
  }

  /** Within 60 seconds of a miss, the same (limit, skip) gets the page computed then,
      whatever the store holds now. */
  lemma StalePageServed(c: AppCache, t0: int, st: Store, st2: Store, limit: nat, skip: nat, t: int)
    requires 1 <= limit
    requires !PageHit(c, LeaderboardKey(limit, skip), t0)
    requires t0 <= t <= t0 + LeaderboardTtl * 1000
    ensures var (p, c1) := FetchLeaderboard(c, t0, st, limit, skip);
      FetchLeaderboard(c1, t, st2, limit, skip) == (p, c1)
  {
  }

  /** Once the entry has expired, the page is recomputed from the store as it is then. */
  lemma ExpiredPageRecomputed(c: AppCache, t0: int, st: Store, st2: Store, limit: nat, skip: nat, t: int)
    requires 1 <= limit
    requires !PageHit(c, LeaderboardKey(limit, skip), t0)
    requires t0 + LeaderboardTtl * 1000 < t
    ensures var (_, c1) := FetchLeaderboard(c, t0, st, limit, skip);
      FetchLeaderboard(c1, t, st2, limit, skip).0 == LeaderboardPage(st2, limit, skip)
  {
  }

  /** Fetching one page never disturbs the cached entry of another. */
  lemma OtherPagesUntouched(c: AppCache, now: int, st: Store, l1: nat, s1: nat, l2: nat, s2: nat, t: int)
    requires 1 <= l1
    requires (l1, s1) != (l2, s2)
    ensures TtlCache.Get(FetchLeaderboard(c, now, st, l1, s1).1, LeaderboardKey(l2, s2), t)
         == TtlCache.Get(c, LeaderboardKey(l2, s2), t)
  {
    if LeaderboardKey(l1, s1) == LeaderboardKey(l2, s2) {
      LeaderboardKeyInjective(l1, s1, l2, s2);
    }
  }

  // ---------------------------------------------------------------------------
  // fetchTotalPopped

  /** A cached total that `fetchTotalPopped` would serve: it tests truthiness, so 0 is not one. */
  predicate TotalHit(c: AppCache, now: int) {
    var g := TtlCache.Get(c, TotalPoppedKey, now);
    g.Some? && g.value.CachedTotal? && g.value.total != 0
  }

  /** `fetchTotalPopped()`: a live non-zero cached total, or the sum of every count record
      (cached for five minutes). On an empty collection `[0].total` throws. */
  function FetchTotalPopped(c: AppCache, now: int, counts: seq<CountRec>): (r: (Result<int>, AppCache))
    ensures TotalHit(c, now) ==>
      r == (Success(TtlCache.Get(c, TotalPoppedKey, now).value.total), c)
    ensures !TotalHit(c, now) && |counts| == 0 ==> r.0.Failure? && r.1 == c
    ensures !TotalHit(c, now) && |counts| > 0 ==>
      && r.0 == Success(TotalCount(counts))
      && (forall t :: now <= t <= now + TotalPoppedTtl * 1000 ==>
            TtlCache.Get(r.1, TotalPoppedKey, t) == Some(CachedTotal(TotalCount(counts))))
      && (forall t :: now + TotalPoppedTtl * 1000 < t ==> TtlCache.Get(r.1, TotalPoppedKey, t) == None)
    ensures forall k, t :: k != TotalPoppedKey ==> TtlCache.Get(r.1, k, t) == TtlCache.Get(c, k, t)
  {
    if TotalHit(c, now) then (Success(TtlCache.Get(c, TotalPoppedKey, now).value.total), c)
    else if |counts| == 0 then (Failure("Cannot read properties of undefined (reading 'total')"), c)
    else
      var total := TotalCount(counts);
      (Success(total), TtlCache.Set(c, TotalPoppedKey, CachedTotal(total), TotalPoppedTtl, now))
  }

  /** A cached total of zero is never served: the sum is recomputed from the records. */
  lemma CachedZeroRecomputed(c: AppCache, now: int, counts: seq<CountRec>)
    requires TtlCache.Get(c, TotalPoppedKey, now) == Some(CachedTotal(0))
    requires |counts| > 0
    ensures FetchTotalPopped(c, now, counts).0 == Success(TotalCount(counts))
  {
  }

  /** Once the cached total has expired, the sum is recomputed from the records as they
      are then. */
  lemma ExpiredTotalRecomputed(c: AppCache, t0: int, counts: seq<CountRec>, counts2: seq<CountRec>, t: int)
    requires !TotalHit(c, t0)
    requires |counts| > 0 && |counts2| > 0
    requires t0 + TotalPoppedTtl * 1000 < t
    ensures var (_, c1) := FetchTotalPopped(c, t0, counts);
      FetchTotalPopped(c1, t, counts2).0 == Success(TotalCount(counts2))
  {
  }

  /** Within five minutes of computing a non-zero total, that total is served even if
      the records have changed since. */
  lemma StaleTotalServed(c: AppCache, t0: int, counts: seq<CountRec>, counts2: seq<CountRec>, t: int)
    requires !TotalHit(c, t0)
    requires TotalCount(counts) != 0
    requires t0 <= t <= t0 + TotalPoppedTtl * 1000
    ensures var (v, c1) := FetchTotalPopped(c, t0, counts);
      FetchTotalPopped(c1, t, counts2).0 == v == Success(TotalCount(counts))
  {
    assert |counts| > 0;
  }

  // ---------------------------------------------------------------------------
  // fetchRank

  /** A JavaScript number as `fetchRank` can produce it: `undefined + 1` is `NaN`. */
  datatype RankValue = Rank(n: int) | NaN

  /** `fetchRank(userCount)`: 1 + the first index of the caller's count value among the
      sorted counts of named users (`$indexOfArray` gives -1 when absent). The aggregation
      yields no row at all when nobody is named. */
  function FetchRank(st: Store, userCount: CountRec): (r: RankValue)
    ensures r.NaN? <==> |Named(st.counts, st.users)| == 0
    ensures Occurs(Named(st.counts, st.users), userCount.count) ==>
      r == Rank(1 + CountAbove(Named(st.counts, st.users), userCount.count))
    ensures !Occurs(Named(st.counts, st.users), userCount.count) && |Named(st.counts, st.users)| > 0 ==>
      r == Rank(0)
  {
    var named := Named(st.counts, st.users);
    if |named| == 0 then NaN
    else
      SortedIndexIsCountAbove(named, userCount.count);
      Rank(IndexOf(CountsOf(SortByCount(named)), userCount.count) + 1)
  }
}

=== FILE: wrappers.dfy ===
/** Helper datatypes shared by every module of the model. */
module Wrappers {

  /** An optional value: a JavaScript `undefined`/`null` is `None`. */
  datatype Option<+T> = None | Some(value: T)

  /** The outcome of an internal helper that may throw: either a value or the thrown message. */
  datatype Result<+T> = Success(value: T) | Failure(error: string)

  /** An HTTP reply as a route handler sends it: a 200 with a JSON body, or an error
      status with its message. An exception that escapes a handler becomes a 500. */
  datatype Reply<+T> = Ok(body: T) | Fail(status: int, message: string)

  /** A query-string parameter after `parseInt`: not given (or the empty string),
      given but not a number (`NaN`), or a number. */
  datatype QueryInt = Absent | NotANumber | Num(v: int)

  /** `parseInt(q) || fallback`: `NaN`, a missing parameter and `0` are all falsy. */
  function IntOr(q: QueryInt, fallback: int): (r: int)
    ensures q.Num? && q.v != 0 ==> r == q.v
    ensures !q.Num? || q.v == 0 ==> r == fallback
  {
    match q
    case Num(v) => if v != 0 then v else fallback
    case _ => fallback
  }

  /** Index of the first occurrence of `x` in `s`, or -1 (`Array.prototype.indexOf`,
      and MongoDB's `$indexOfArray`). */
  function IndexOf<T(==)>(s: seq<T>, x: T): (r: int)
    ensures x in s ==> 0 <= r < |s| && s[r] == x
    ensures x in s ==> forall j :: 0 <= j < r ==> s[j] != x
    ensures x !in s ==> r == -1
  {
    if |s| == 0 then -1
    else if s[0] == x then 0
    else
      var k := IndexOf(s[1..], x);
      if k < 0 then -1 else k + 1
  }

  /** No element occurs twice. */
  predicate Distinct<T(==)>(s: seq<T>) {
    forall i, j :: 0 <= i < j < |s| ==> s[i] != s[j]
  }
}
